=== FILE: README.md ===
# BrandMate core, modelled in Dafny

BrandMate is a small account-and-names application. It has two Node
servers and a React-Native client:

- The MongoDB backend registers and logs in users, saves names, lists them a
  page at a time and fetches one by id.
- A second server keeps the names in a text file.
- The client holds an authentication context backed by a key-value storage
  wrapper, plus three forms: register, login and name.

This project models the decision logic of each of these parts as pure
functions over immutable data, and proves what each part promises.

| file | module | models |
|---|---|---|
| values.dfy | `Values` | missing values, JavaScript truthiness, `s \|\| fallback` |
| text.dfy | `Text` | `trim` (ECMAScript white space), ASCII `toLowerCase`, `split`, the non-blank line filter |
| http.dfy | `Http` | a JSON reply: status with payload, or status with `{error, message}` |
| accounts.dfy | `Accounts` | `POST /api/auth/register` and `POST /api/auth/login` over a users collection |
| name_schema.dfy | `NameSchema` | the Name document: `fullName` constraints, dates, the `pre('save')` hook |
| name_routes.dfy | `NameRoutes` | the backend names routes (save, paginated list, by id) and the error middleware |
| name_log.dfy | `NameLog` | the file-backed server: one `name - timestamp` line per save, read back line by line |
| storage.dfy | `Storage` | the client storage wrapper and its platform branch |
| auth_context.dfy | `AuthContext` | the client session: `clearAuthData`, `checkAuthStatus`, `login`, `register`, `logout` |
| email_pattern.dfy | `EmailPattern` | the registration e-mail regular expression, as the language it denotes |
| register_form.dfy | `RegisterForm` | `validateForm` and `handleRegister` |
| login_form.dfy | `LoginForm` | `handleLogin` |
| name_form.dfy | `NameForm` | `handleSubmit`, its headers, and the greeting condition |
| end_to_end.dfy | `EndToEnd` | what a request a form lets through does at the server |

The model uses parameters for everything the code cannot decide by itself:

- **Database.** Failures are a `DbFault`. The document `findOne` picks among
  several matches is `choice`. Unique indexes are a flag. The new `_id` is a
  parameter.
- **Time.** Clock readings are abstract.
- **Crypto.** `generateToken` and `comparePassword` are function parameters.
- **Network.** Every network answer is a datatype value.
- **Storage.** A storage device whose every call throws is `faulty`.
- **JSON.** Failed parses are flags.

An `await` that rejects is a constructor of its own, such as `Unreachable`,
`Offline` or `Rejected`.

Two consequences of the code are worth stating up front:

- **Duplicate check.** The register handler looks up the raw username and
  e-mail, but stores them trimmed and lower-cased. Without a unique index a
  padded username therefore creates a duplicate
  (`Accounts.PaddedUsernameDuplicates`). With a unique index, a mixed-case
  e-mail gives a 500 rather than a 409
  (`Accounts.MixedCaseEmailIsNotAConflict`).
- **Password.** Any hashing happens in the User model, which is not part of
  this model. So `User.password` holds the submitted string, and password
  comparison is a parameter.

## Model

| member | source | states |
|---|---|---|
| Values.OrElse | brandmate-frontend/contexts/AuthContext.tsx:122 | `s \|\| fallback` is the string when it is present and non-empty, otherwise the fallback, and it is never empty when the fallback is not |
| Text.TrimSpec | brandmatebackend/server.js:245 | a trimmed string has no white space at either end and is no longer than the input; it is empty exactly when the input is all white space |
| Text.TrimStartSpec | brandmatebackend/server.js:98 | the start-trimmed string is a suffix of the input, and everything dropped is white space |
| Text.TrimEndSpec | brandmatebackend/server.js:98 | the end-trimmed string is a prefix of the input, and everything dropped is white space |
| Text.TrimOfPadded | brandmatebackend/server.js:98 | trimming white-space padding off an already trimmed string gives that string back |
| Text.TrimIdempotent | brandmatebackend/models/Name.js:7 | trimming twice is trimming once |
| Text.TrimAbsorbsPadding | brandmate-frontend/components/RegisterForm.tsx:31 | extra white space around any string does not change its trim |
| Text.TrimParts | brandmatebackend/server.js:98 | every string is its trim with white space on either side |
| Text.ToLower | brandmatebackend/server.js:99 | lower-casing keeps the length, maps every character through the ASCII lower-case map, and leaves no upper-case letter |
| Text.ToLowerIdempotent | brandmatebackend/server.js:149 | lower-casing twice is lower-casing once |
| Text.Split | server.js:85 | `split('\n')` gives at least one piece, and no piece contains the separator |
| Text.SplitAround | server.js:85 | splitting at a separator occurrence splits both sides independently |
| Text.SplitWithoutSeparator | server.js:85 | a string without the separator splits into itself alone |
| Text.JoinSplit | server.js:85 | joining the pieces of a split with the separator gives back the original text |
| Text.SplitJoin | server.js:85 | splitting a join of separator-free pieces gives back the pieces |
| Text.NonBlank | server.js:85 | the filter keeps no more lines than it is given, and every kept line is non-blank after trimming |
| Text.NonBlankKeepsAll | server.js:85 | lines that are all non-blank pass the filter unchanged |
| Text.NonBlankDropsAll | server.js:85 | lines that are all blank are all dropped |
| Text.NonBlankSublist | server.js:85 | every kept line is one of the input lines |
| Text.NonBlankConcat | server.js:85 | the filter works line by line: filtering a concatenation concatenates the filtered parts |
| Accounts.FindOne | brandmatebackend/server.js:85-87 | `findOne` finds nothing exactly when no document matches the `$or` filter; otherwise it finds a matching document |
| Accounts.FindOneSingle | brandmatebackend/server.js:85-87 | with exactly one matching document, every choice returns it |
| Accounts.Register | brandmatebackend/server.js:72-131 | a missing or empty field gives 400 with the required-fields message; a rejected lookup gives 500 "Error creating user account" whatever the collection holds; otherwise a document matching the raw username or e-mail gives 409, with "Email already registered" exactly when the found document's e-mail equals the submitted one; past that check only a save validation error is a 400 and every other failure is a 500; every failure leaves the collection unchanged; success is exactly "fields present, no fault, no match, no index collision" and appends one active document with trimmed username, trimmed lower-cased e-mail, the new id and a token for it |
| Accounts.LoginTarget | brandmatebackend/server.js:147-152 | login looks the identifier up lower-cased as an e-mail and exactly as a username; it finds nothing exactly when no document matches either way |
| Accounts.Login | brandmatebackend/server.js:134-201 | a missing identifier or password gives 400; an unknown identifier and a wrong password for an active account give the same 401 "Invalid credentials"; an inactive account gives 401 "Your account has been deactivated" whatever the password; a rejected lookup, or a rejected `lastLogin` save for an active account whose password matches, gives 500 "Error during login"; only full success changes the collection, and then only that user's lastLogin; success is exactly "found, active, password matches, no fault" |
| Accounts.RegisterPreservesWellFormed | brandmatebackend/server.js:97-103 | with unique indexes and a fresh id, registration keeps ids, usernames and e-mails unique across the collection |
| Accounts.LoginPreservesWellFormed | brandmatebackend/server.js:179-181 | login never breaks that uniqueness |
| Accounts.RegisterTwiceConflicts | brandmatebackend/server.js:85-94 | registering the same normalised username a second time is a 409, whatever e-mail it brings, unless the lookup itself fails |
| Accounts.PaddedUsernameDuplicates | brandmatebackend/server.js:85-98 | " alice" passes the duplicate check against a stored "alice" and is stored as "alice", so without a unique index two documents share that username |
| Accounts.StoredAsLowerCase | brandmatebackend/server.js:99 | the e-mail "Alice@x.com" is stored as "alice@x.com" |
| Accounts.MixedCaseEmailIsNotAConflict | brandmatebackend/server.js:85-129 | "Alice@x.com" passes the duplicate check against a stored "alice@x.com"; with a unique index the save fails with 500 rather than 409, and the collection is unchanged |
| Accounts.RegisterThenLogin | brandmatebackend/server.js:97-184 | a user who has just registered can log in with the trimmed username, provided no other account claims that identifier; the login returns the new id and a token for it |
| Storage.SetItem | brandmate-frontend/utils/storage.ts:5-15 | it throws exactly when localStorage is reached and fails; when localStorage is reached the key then holds the value; every other key is untouched; without localStorage nothing happens |
| Storage.GetItem | brandmate-frontend/utils/storage.ts:17-27 | it throws exactly when localStorage is reached and fails; a value is returned exactly for a stored key, and it is the stored value; without localStorage the result is null |
| Storage.RemoveItem | brandmate-frontend/utils/storage.ts:29-38 | it throws exactly when localStorage is reached and fails; when localStorage is reached the key is then absent; other keys are untouched; without localStorage nothing happens |
| Storage.SetThenGet | brandmate-frontend/utils/storage.ts:5-19 | on working storage, reading a key after writing it returns the value written |
| Storage.RemoveThenGet | brandmate-frontend/utils/storage.ts:17-31 | on working storage, reading a key after removing it returns null |
| Storage.UnbackedIsInert | brandmate-frontend/utils/storage.ts:11-36 | on a native platform without localStorage, writes and removals do nothing and reads return null |
| Storage.NativeWithStorageIsWeb | brandmate-frontend/utils/storage.ts:6-36 | a native platform with localStorage behaves exactly like the web for all three operations |
| Storage.OtherKeysUntouched | brandmate-frontend/utils/storage.ts:5-38 | writing or removing one key leaves what every other key reads as it was |
| AuthContext.ClearAuthData | brandmate-frontend/contexts/AuthContext.tsx:47-56 | user and token are always cleared, so the session is unauthenticated; on working storage both keys are then absent; no other key changes; a storage error is swallowed |
| AuthContext.CheckAuthStatus | brandmate-frontend/contexts/AuthContext.tsx:58-86 | loading is over on every path; with a stored key missing, no request is sent and nothing changes; a failing storage read clears the session; with both keys present and a stored user that does not parse, nothing is sent and session and both stored keys are cleared; a profile request is sent exactly when both keys are present and the user parses, and it carries the stored token; the restored session survives exactly when the server accepts it, and otherwise session and stored keys are cleared |
| AuthContext.Authenticate | brandmate-frontend/contexts/AuthContext.tsx:95-164 | success happens exactly for an ok reply with success and data and storage that does not throw; then token and user are stored and become the session, and the reply's message is passed on; a rejected reply leaves the client unchanged and reports the reply's message or the fallback; an unreachable server or an unparsable body gives the network-error message, and so does an accepted reply that throws afterwards (no `data`, or a storage write that throws); no failure is ever reported with an empty message |
| AuthContext.Login | brandmate-frontend/contexts/AuthContext.tsx:95-128 | a rejected login reports the server's message or "Login failed"; a successful one holds the user from the reply |
| AuthContext.Register | brandmate-frontend/contexts/AuthContext.tsx:130-164 | a rejected registration reports the server's message or "Registration failed"; a successful one holds the user from the reply |
| AuthContext.Logout | brandmate-frontend/contexts/AuthContext.tsx:166-184 | the server is called exactly when a token is held, with that token; afterwards the session is unauthenticated and, on working storage, both keys are gone, whatever the server answered |
| AuthContext.TransitionsKeepPaired | brandmate-frontend/contexts/AuthContext.tsx:41-184 | every transition keeps "a user is held exactly when a token is held" |
| AuthContext.TransitionsKeepInSync | brandmate-frontend/contexts/AuthContext.tsx:47-184 | after every transition, whenever a user is held, working storage holds its token and user |
| AuthContext.LoginSurvivesRestart | brandmate-frontend/contexts/AuthContext.tsx:58-128 | a login on working storage is restored by `checkAuthStatus` after a restart, as an authenticated session, when the server still accepts the token |
| AuthContext.LogoutSurvivesRestart | brandmate-frontend/contexts/AuthContext.tsx:58-184 | after a logout on working storage, a restart sends nothing and starts unauthenticated |
| EmailPattern.EmailSplit | brandmate-frontend/components/RegisterForm.tsx:46 | an address whose local part has no `@` matches exactly when the local part is a dotted name and the rest is a domain |
| EmailPattern.DottedNameExtends | brandmate-frontend/components/RegisterForm.tsx:46 | appending a separator and a label to a dotted name gives a dotted name |
| EmailPattern.DomainExtends | brandmate-frontend/components/RegisterForm.tsx:46 | a domain stays a domain when another 2- or 3-character label is appended |
| EmailPattern.NoAtInDottedName | brandmate-frontend/components/RegisterForm.tsx:46 | a dotted name contains no `@` |
| EmailPattern.NoAtInDomain | brandmate-frontend/components/RegisterForm.tsx:46 | a domain contains no `@` |
| EmailPattern.OneAt | brandmate-frontend/components/RegisterForm.tsx:46 | every accepted address holds exactly one `@` |
| EmailPattern.FinalLabel | brandmate-frontend/components/RegisterForm.tsx:46 | every accepted address ends with `.` followed by two or three word characters |
| EmailPattern.AcceptsPlainAddress | brandmate-frontend/components/RegisterForm.tsx:46 | "jo.li@ab.cd.com" is accepted |
| EmailPattern.RejectsFourLetterLabel | brandmate-frontend/components/RegisterForm.tsx:46 | "jane@mail.info" is rejected: the last label has four characters |
| EmailPattern.RejectsDoubledSeparator | brandmate-frontend/components/RegisterForm.tsx:46 | "jane..doe@mail.com" is rejected: two separators in a row |
| RegisterForm.ValidateFormFirstFailure | brandmate-frontend/components/RegisterForm.tsx:30-68 | the form is accepted exactly when none of the seven checks fails; otherwise the message shown is that of the first failing check in the fixed order |
| RegisterForm.HandleRegister | brandmate-frontend/components/RegisterForm.tsx:70-101 | an invalid form shows its message and sends nothing; a valid form calls `register` once, with the trimmed username, the trimmed e-mail and the raw password; success clears all four fields; a failure shows the result's message and keeps the fields; loading ends after every call |
| RegisterForm.BlankPasswordPasses | brandmate-frontend/components/RegisterForm.tsx:52-65 | the password checks look at the raw password, so six spaces pass them |
| RegisterForm.UsernamePaddingIsIgnored | brandmate-frontend/components/RegisterForm.tsx:31-80 | padding the username with white space changes neither the verdict nor the call |
| LoginForm.HandleLogin | brandmate-frontend/components/LoginForm.tsx:27-56 | a blank identifier or password shows the prompt and sends nothing; otherwise `login` is called once, with the trimmed identifier and the raw password; success shows "Login successful!" and clears both fields; a failure shows the result's message and keeps them; loading ends after every call |
| LoginForm.PaddedPasswordSentAsTyped | brandmate-frontend/components/LoginForm.tsx:28-37 | the guard trims the password but the call does not, so " pw " is sent with its blanks |
| LoginForm.BlankPasswordNeverSent | brandmate-frontend/components/LoginForm.tsx:28-31 | a password made only of white space is never sent |
| NameForm.Headers | brandmate-frontend/components/NameForm.tsx:31-38 | the request always declares JSON, and it carries an `Authorization` header exactly when a token is held, set to `Bearer` and that token |
| NameForm.HandleSubmit | brandmate-frontend/components/NameForm.tsx:21-63 | a blank name shows the prompt and sends nothing; otherwise the trimmed name is sent; an ok reply clears the input; a non-ok reply shows its message or "Error saving the name."; a throw shows the network-error message; loading ends after every request |
| NameForm.GreetingMeansToken | brandmate-frontend/components/NameForm.tsx:67-69 | the greeting is shown exactly for an authenticated session, and such a session's requests carry its token |
| NameSchema.Create | brandmatebackend/models/Name.js:3-18 | a new document's name is trimmed and no longer than the input, and both dates are the creation time |
| NameSchema.Validate | brandmatebackend/models/Name.js:4-10 | a stored name is valid exactly when it has between 1 and 100 characters; `required` is the failure exactly for the empty name |
| NameSchema.Save | brandmatebackend/models/Name.js:21-25 | a save succeeds exactly for a valid name, and it changes only `updatedAt`, to the save time |
| NameSchema.AcceptedIffTrimmedLength | brandmatebackend/models/Name.js:4-10 | a name is accepted exactly when its trimmed form has between 1 and 100 characters |
| NameSchema.SavedNameIsStable | brandmatebackend/models/Name.js:4-25 | a saved name is the trimmed input, trimming it again changes nothing, createdAt is the creation time and updatedAt the save time |
| NameSchema.ResaveMovesOnlyUpdatedAt | brandmatebackend/models/Name.js:22-25 | saving again succeeds and moves only `updatedAt` |
| NameRoutes.PostName | brandmatebackend/server.js:240-285 | a missing or blank name gives 400 "Invalid input"; a validation error can only come from the length limit, and a trimmed name over 100 characters always gives that 400; a valid name whose write fails gives 500 "Error saving the name to database"; success is exactly "present, 1 to 100 characters once trimmed, write succeeds", and then exactly one document holding the trimmed name is appended and echoed with 201; every failure leaves the collection unchanged |
| NameRoutes.Insert | brandmatebackend/server.js:295 | inserting into a newest-first sequence keeps it newest first and adds exactly that document |
| NameRoutes.SortNewest | brandmatebackend/server.js:295 | the sorted documents are newest first and are a permutation of the stored ones |
| NameRoutes.Window | brandmatebackend/server.js:296-297 | the window is a contiguous run starting `skip` items in, exactly as long as the limit (its absolute value when negative) or the remaining items, whichever is shorter, empty past the end, and the whole rest when the limit is 0 |
| NameRoutes.TotalPages | brandmatebackend/server.js:315 | there is no finite page count exactly when the limit is 0; for a positive limit the count is the least number of pages that covers all documents; for a negative limit it is `Math.ceil` of the non-positive quotient, the least r with r times the limit at most the total |
| NameRoutes.ListNames | brandmatebackend/server.js:288-325 | the listing fails with 500 exactly on a database error or a negative skip; otherwise it reports the total, the page asked for and the page count, and returns the newest-first documents with `(page - 1) * limit` skipped and at most `limit` kept, with `count` equal to their number |
| NameRoutes.WindowNewestFirst | brandmatebackend/server.js:294-297 | any window of a newest-first sequence is newest first |
| NameRoutes.PageCount | brandmatebackend/server.js:315 | cutting the documents into pages of `limit` gives exactly `totalPages` pages |
| NameRoutes.PagesFlatten | brandmatebackend/server.js:290-297 | read one after the other, the pages give every document exactly once, in order |
| NameRoutes.PagesAreWindows | brandmatebackend/server.js:290-297 | page k is the window that skips `k * limit` documents |
| NameRoutes.PageAt | brandmatebackend/server.js:290-297 | a single page k starts `k * limit` documents in |
| NameRoutes.WindowShift | brandmatebackend/server.js:296-297 | skipping `limit + s` is skipping `limit` and then `s` |
| NameRoutes.PastLastPageIsEmpty | brandmatebackend/server.js:291-297 | a page past the last one is empty |
| NameRoutes.ListingIsPage | brandmatebackend/server.js:290-316 | for a positive limit, the listing for page p is the p-th page of the newest-first documents, or empty past the last page, and `totalPages` counts the pages |
| NameRoutes.FindById | brandmatebackend/server.js:340 | `findById` finds the first document with that id, and finds nothing exactly when no document has it |
| NameRoutes.GetName | brandmatebackend/server.js:328-366 | an invalid id gives 400; a database error gives 500; an unknown id gives 404; a valid, stored id with no database error always gives 200, returning the first stored document with that id, with `timestamp` equal to its creation time |
| NameRoutes.SavedNameCanBeFetched | brandmatebackend/server.js:253-358 | a name just saved under a fresh id is fetched back by that id with its trimmed name and its dates |
| NameRoutes.HandleError | brandmatebackend/server.js:408-414 | the error middleware always answers 500 "Something went wrong!", with the error's own message only when `NODE_ENV` is `development` |
| NameLog.Entry | server.js:49 | the appended entry begins with the trimmed name followed by ` - `, and ends with a line break |
| NameLog.PostName | server.js:36-67 | a missing or blank name gives 400 and leaves the file as it was; a write error gives 500; success replies 200 with the trimmed name and appends exactly one entry |
| NameLog.ReadNames | server.js:70-88 | a missing file reads as no names; a read error gives 500; every name returned is a single non-blank line |
| NameLog.ReadAfterAppend | server.js:49-85 | appending a non-blank line to text that ends at a line break adds exactly that line to what is read back |
| NameLog.CompleteSplit | server.js:85 | text that ends at a line break splits into its lines and a final empty piece, and an appended line goes just before that piece |
| NameLog.SplitLine | server.js:85 | one line with its break splits into that line and an empty piece |
| NameLog.EntryLine | server.js:49 | the line written for an accepted single-line name is one non-blank line |
| NameLog.Logged | server.js:49 | the i-th line logged is the i-th trimmed name, ` - ` and the i-th timestamp |
| NameLog.RoundTrip | server.js:36-88 | saving k single-line names (k may be 0) into a fresh log and reading it back gives exactly k lines, the i-th being the i-th trimmed name, ` - ` and its timestamp |
| NameLog.RoundTripFrom | server.js:36-88 | saving names on top of any text that ends at a line break adds their lines, in order, after the existing ones |
| NameLog.PostAllFromMissing | server.js:52 | saving into a missing file is saving into an empty one |
| EndToEnd.NameFormBodyStoredAsSent | brandmate-frontend/components/NameForm.tsx:40-44 | a name the form sends passes the backend's guard, and when it fits the schema and the write succeeds it is stored and echoed exactly as sent |
| EndToEnd.NameFormBodyLoggedAsSent | brandmate-frontend/components/NameForm.tsx:40-44 | the same name sent to the file-backed server is logged as exactly that name, ` - ` and the timestamp |
| EndToEnd.RegisterFormCallPassesGuard | brandmate-frontend/components/RegisterForm.tsx:73-80 | a registration the form lets through is never refused by the backend's required-fields guard, so only the database decides it; the account it creates keeps the username exactly as sent and lower-cases the e-mail |
| EndToEnd.LoginFormCallPassesGuard | brandmate-frontend/components/LoginForm.tsx:28-37 | a login the form lets through is never refused by the backend's required-fields guard |

## Left out

- Express, helmet, cors and morgan wiring, `app.listen`, the MongoDB connection, the health and root routes, and the 404 handler: framework plumbing with no decisions of its own.
- `DELETE /api/names/:id` (brandmatebackend/server.js:369-405): an administrative route outside the modelled core.
- `GET /api/auth/profile`, `POST /api/auth/logout` and the `authenticateToken` middleware on the server: the middleware and the User model are not part of this model, so the client sees the profile and logout replies only as `PlainReply` values.
- `generateToken`, `comparePassword`, password hashing and `toJSON`: cryptography and serialisation, modelled as function parameters or left as the stored record.
- `findOne`'s choice among several matches is a `choice` parameter. The unique indexes of the User model are an `uniqueIndex` flag. `ObjectId.isValid` is an `isValid` parameter. A duplicate-key error from the database is modelled as a 500.
- Accounts.Register: request bodies whose fields are not strings (a number, an object) are not modelled. `findOne` sees them raw before any `trim`, so a non-string that matches a stored document (an operator object such as `{"$ne": null}`, or a number cast to a matching string) answers 409. Otherwise a non-string `username` or `email` makes `trim` throw and the handler answers 500, while a numeric `password` is never trimmed and can register with 201.
- Accounts.Login: a non-string `login` is not modelled; in the code `login.toLowerCase()` throws and the handler answers 500.
- NameLog.PostName: a non-string `fullName` that passes the truthiness test is not modelled; in the code `fullName.trim()` throws and the error middleware answers 500 "Something went wrong!".
- NameRoutes.PostName: likewise, a non-string `fullName` that passes the truthiness test is not modelled.
- NameRoutes.ListNames: the query values are taken as integers already. Query values that are not integer strings are not modelled; for some of them (`limit=1e1`) `parseInt` and the numeric use of `limit` disagree, so the page returned and `totalPages` use different limits.
- Text.ToLower: only ASCII letters are lower-cased. JavaScript lower-cases all of Unicode, which this model does not include.
- Text.Trim and the length checks count Dafny characters (code points), not UTF-16 code units as JavaScript does; they differ only for characters outside the Basic Multilingual Plane.
- NameSchema.Create: `createdAt` and `updatedAt` both default to the same clock reading; the code reads `Date.now` twice.
- `Date` values and their ISO strings are one abstract time value. For the file-backed server, the file timestamp and the reply timestamp are separate parameters.
- AuthContext.CheckAuthStatus: `JSON.parse` is the identity with a parse-failure flag. A stored user that parses to a non-object, such as the text `null`, is not modelled.
- Storage: a `faulty` device throws on every call. A storage that fails part-way through the two writes of `login`, or between the two removals of `clearAuthData`, is modelled only as that first call failing.
- AuthContext.Login and AuthContext.Register: the credentials only shape the request body, which the server models cover. The client model starts from the reply.
- `Alert` pop-ups, rendering and styles, the `AuthScreen` mode toggle, `UserProfile`, and the `config/api.ts` URLs: presentation and configuration.
- Concurrency: requests are modelled one at a time, so the check-then-insert race in register is not represented.
- NameRoutes.SortNewest: documents with equal `createdAt` keep their stored order. MongoDB promises no order for them.

=== FILE: accounts.dfy ===
/** The backend's authentication routes, `POST /api/auth/register` and
    `POST /api/auth/login`, as pure functions from a users collection and a
    request body to a reply and the collection afterwards. */
module Accounts {
  import opened Values
  import opened Text
  import opened Http

  type UserId = nat

  /** A clock reading (`new Date()`), left abstract. */
  type Time = int

  /** A stored user document. `password` is what the client submitted at
      registration; the User model hashes it, which is not modelled. */
  datatype User = User(
    id: UserId,
    username: string,
    email: string,
    password: string,
    isActive: bool,
    lastLogin: Option<Time>)

  /** The users collection, in insertion order. */
  type Store = seq<User>

  /** A failure of the database on this request. */
  datatype DbFault =
    | NoFault
      /** `findOne` rejects. */
    | LookupFails
      /** `save` rejects; `Some(m)` for a mongoose ValidationError with message `m`. */
    | SaveFails(validation: Option<string>)

  /** Everything the handlers consult besides the request body. */
  datatype Env = Env(
    /** the `_id` a newly saved document receives */
    newId: UserId,
    now: Time,
    /** which match `findOne` returns when several documents match */
    choice: nat,
    /** whether username and email carry unique indexes */
    uniqueIndex: bool,
    fault: DbFault,
    /** `generateToken` */
    sign: UserId -> string,
    /** `user.comparePassword` */
    passwordMatches: (User, string) -> bool)

  /** The `data` of a successful reply, with its `message`. */
  datatype AuthPayload = AuthPayload(message: string, user: User, token: string)

  const RegisterRequired := "Username, email, and password are required"
  const LoginRequired := "Username/email and password are required"
  const EmailTaken := "Email already registered"
  const UsernameTaken := "Username already taken"
  const InvalidCredentials := "Invalid credentials"
  const AccountDeactivated := "Your account has been deactivated"
  const RegisterFailed := "Error creating user account"
  const LoginFailed := "Error during login"
  const Registered := "User registered successfully"
  const LoggedIn := "Login successful"

  /** The filter `{ $or: [{ email }, { username }] }`. */
  predicate Matches(u: User, email: string, username: string) {
    u.email == email || u.username == username
  }

  predicate NoneMatch(store: Store, email: string, username: string) {
    forall i :: 0 <= i < |store| ==> !Matches(store[i], email, username)
  }

  /** The positions of the documents the filter matches, in store order. */
  function Candidates(store: Store, email: string, username: string): (r: seq<nat>)
    ensures forall k :: 0 <= k < |r| ==> r[k] < |store| && Matches(store[r[k]], email, username)
    ensures forall i :: 0 <= i < |store| && Matches(store[i], email, username) ==> i in r
    decreases |store|
  {
    if store == [] then []
    else
      var r := Candidates(store[..|store| - 1], email, username);
      if Matches(store[|store| - 1], email, username) then r + [|store| - 1] else r
  }

  /** `User.findOne(filter)`: nothing when no document matches, otherwise
      the position of the match that `choice` stands for. */
  function FindOne(store: Store, email: string, username: string, choice: nat): (r: Option<nat>)
    ensures r.None? <==> NoneMatch(store, email, username)
    ensures r.Some? ==> r.value < |store| && Matches(store[r.value], email, username)
  {
    var cands := Candidates(store, email, username);
    if |cands| == 0 then None else Some(cands[choice % |cands|])
  }

  /** With a single matching document, every choice finds it. */
  lemma FindOneSingle(store: Store, email: string, username: string, choice: nat, i: nat)
    requires i < |store| && Matches(store[i], email, username)
    requires forall j :: 0 <= j < |store| && j != i ==> !Matches(store[j], email, username)
    ensures FindOne(store, email, username, choice) == Some(i)
  {
  }

  /** The document `register` creates: trimmed username, trimmed and
      lower-cased email, the password as submitted, active, never logged in. */
  function NewUser(id: UserId, username: string, email: string, password: string): User {
    User(id, Trim(username), ToLower(Trim(email)), password, true, None)
  }

  /** Some stored document already holds the username or email of `u`. */
  predicate Collides(store: Store, u: User) {
    exists i :: 0 <= i < |store| && (store[i].username == u.username || store[i].email == u.email)
  }

  /** The register handler. The duplicate check looks for the username and
      email exactly as submitted, while the document stores them trimmed and
      (for the email) lower-cased. */
  function Register(store: Store, username: Option<string>, email: Option<string>,
                    password: Option<string>, env: Env): (r: (Reply<AuthPayload>, Store))
    // a missing or empty field is rejected before anything else
    ensures !Truthy(username) || !Truthy(email) || !Truthy(password) ==>
      r == (Fail(400, ValidationError, RegisterRequired), store)
    // every failure leaves the collection as it was
    ensures r.0.Fail? ==> r.1 == store
    // a rejected lookup is a server error, whatever the collection holds
    ensures Truthy(username) && Truthy(email) && Truthy(password) && env.fault.LookupFails? ==>
      r.0 == Fail(500, ServerError, RegisterFailed)
    // a stored document matching the raw username or email is a conflict
    ensures (Truthy(username) && Truthy(email) && Truthy(password) && !env.fault.LookupFails?
      && !NoneMatch(store, email.value, username.value)) ==>
        && r.0.Fail? && r.0.status == 409 && r.0.error == "User exists"
        && var found := FindOne(store, email.value, username.value, env.choice);
           found.Some? && (r.0.message == EmailTaken <==> store[found.value].email == email.value)
           && (r.0.message != EmailTaken ==> r.0.message == UsernameTaken)
    // success: exactly one document appended, normalised, and a token for it
    ensures r.0.Ok? ==>
      && Truthy(username) && Truthy(email) && Truthy(password)
      && r.0.status == 201 && r.0.payload.message == Registered
      && r.1 == store + [r.0.payload.user]
      && r.0.payload.user.id == env.newId
      && r.0.payload.user.username == Trim(username.value)
      && r.0.payload.user.email == ToLower(Trim(email.value))
      && r.0.payload.user.password == password.value
      && r.0.payload.user.isActive && r.0.payload.user.lastLogin.None?
      && r.0.payload.token == env.sign(env.newId)
    // past the conflict check, only a save validation error is a 400;
    // every other failure, a duplicate-key error included, is a 500
    ensures (Truthy(username) && Truthy(email) && Truthy(password)
      && NoneMatch(store, email.value, username.value) && r.0.Fail?) ==>
        r.0 == (if env.fault.SaveFails? && env.fault.validation.Some?
                then Fail(400, ValidationError, env.fault.validation.value)
                else Fail(500, ServerError, RegisterFailed))
    // and success is exactly the case where nothing stands in the way
    ensures r.0.Ok? <==>
      && Truthy(username) && Truthy(email) && Truthy(password)
      && env.fault.NoFault?
      && NoneMatch(store, email.value, username.value)
      && !(env.uniqueIndex && Collides(store, NewUser(env.newId, username.value, email.value, password.value)))
  {
    if !Truthy(username) || !Truthy(email) || !Truthy(password) then
      (Fail(400, ValidationError, RegisterRequired), store)
    else if env.fault.LookupFails? then
      (Fail(500, ServerError, RegisterFailed), store)
    else
      match FindOne(store, email.value, username.value, env.choice)
      case Some(i) =>
        var message := if store[i].email == email.value then EmailTaken else UsernameTaken;
        (Fail(409, "User exists", message), store)
      case None =>
        var user := NewUser(env.newId, username.value, email.value, password.value);
        if env.fault.SaveFails? then
          match env.fault.validation
          case Some(m) => (Fail(400, ValidationError, m), store)
          case None => (Fail(500, ServerError, RegisterFailed), store)
        else if env.uniqueIndex && Collides(store, user) then
          // a duplicate-key error is not a ValidationError
          (Fail(500, ServerError, RegisterFailed), store)
        else
          (Ok(201, AuthPayload(Registered, user, env.sign(env.newId))), store + [user])
  }

  /** The document the login handler works on: `findOne` with the
      lower-cased identifier as email or the identifier itself as username. */
  function LoginTarget(store: Store, login: string, choice: nat): (r: Option<nat>)
    ensures r.Some? ==>
      r.value < |store| && (store[r.value].email == ToLower(login) || store[r.value].username == login)
    ensures r.None? <==>
      forall i :: 0 <= i < |store| ==> store[i].email != ToLower(login) && store[i].username != login
  {
    FindOne(store, ToLower(login), login, choice)
  }

  /** The login handler. The account's active flag is consulted before the
      password, so a deactivated account is reported whatever the password. */
  function Login(store: Store, login: Option<string>, password: Option<string>, env: Env)
    : (r: (Reply<AuthPayload>, Store))
    ensures !Truthy(login) || !Truthy(password) ==>
      r == (Fail(400, ValidationError, LoginRequired), store)
    ensures r.0.Fail? ==> r.1 == store
    // an unknown identifier is rejected like a wrong password
    ensures (Truthy(login) && Truthy(password) && !env.fault.LookupFails?
      && LoginTarget(store, login.value, env.choice).None?) ==>
        r.0 == Fail(401, "Authentication failed", InvalidCredentials)
    ensures Truthy(login) && Truthy(password) && !env.fault.LookupFails? ==>
      var target := LoginTarget(store, login.value, env.choice);
      && (target.Some? && !store[target.value].isActive ==>
            r.0 == Fail(401, "Account deactivated", AccountDeactivated))
      && (target.Some? && store[target.value].isActive
            && !env.passwordMatches(store[target.value], password.value) ==>
              r.0 == Fail(401, "Authentication failed", InvalidCredentials))
    // a rejected lookup, or a rejected save of lastLogin for an account
    // that would otherwise log in, is a server error
    ensures Truthy(login) && Truthy(password) && env.fault.LookupFails? ==>
      r.0 == Fail(500, ServerError, LoginFailed)
    ensures Truthy(login) && Truthy(password) && env.fault.SaveFails? ==>
      var target := LoginTarget(store, login.value, env.choice);
      (target.Some? && store[target.value].isActive && env.passwordMatches(store[target.value], password.value) ==>
         r.0 == Fail(500, ServerError, LoginFailed))
    // success touches only the chosen user's lastLogin
    ensures r.0.Ok? ==>
      && Truthy(login) && Truthy(password) && env.fault.NoFault?
      && var target := LoginTarget(store, login.value, env.choice);
      && target.Some?
      && var i := target.value;
      && store[i].isActive && env.passwordMatches(store[i], password.value)
      && r.0.status == 200 && r.0.payload.message == LoggedIn
      && r.1 == store[i := store[i].(lastLogin := Some(env.now))]
      && r.0.payload.user == r.1[i]
      && r.0.payload.token == env.sign(store[i].id)
    ensures r.0.Ok? <==>
      && Truthy(login) && Truthy(password) && env.fault.NoFault?
      && var target := LoginTarget(store, login.value, env.choice);
      && target.Some? && store[target.value].isActive
      && env.passwordMatches(store[target.value], password.value)
  {
    if !Truthy(login) || !Truthy(password) then
      (Fail(400, ValidationError, LoginRequired), store)
    else if env.fault.LookupFails? then
      (Fail(500, ServerError, LoginFailed), store)
    else
      match LoginTarget(store, login.value, env.choice)
      case None => (Fail(401, "Authentication failed", InvalidCredentials), store)
      case Some(i) =>
        var user := store[i];
        if !user.isActive then
          (Fail(401, "Account deactivated", AccountDeactivated), store)
        else if !env.passwordMatches(user, password.value) then
          (Fail(401, "Authentication failed", InvalidCredentials), store)
        else if env.fault.SaveFails? then
          (Fail(500, ServerError, LoginFailed), store)
        else
          var updated := user.(lastLogin := Some(env.now));
          (Ok(200, AuthPayload(LoggedIn, updated, env.sign(user.id))), store[i := updated])
  }

  /** Ids, usernames and emails are each unique across the collection. */
  predicate WellFormed(store: Store) {
    forall i, j :: 0 <= i < j < |store| ==>
      && store[i].id != store[j].id
      && store[i].username != store[j].username
      && store[i].email != store[j].email
  }

  predicate FreshId(store: Store, id: UserId) {
    forall i :: 0 <= i < |store| ==> store[i].id != id
  }

  /** With unique indexes and a fresh `_id`, registration keeps the
      collection free of duplicates. */
  lemma RegisterPreservesWellFormed(store: Store, username: Option<string>, email: Option<string>,
                                    password: Option<string>, env: Env)
    requires WellFormed(store) && env.uniqueIndex && FreshId(store, env.newId)
    ensures WellFormed(Register(store, username, email, password, env).1)
  {
    var r := Register(store, username, email, password, env);
    if r.0.Ok? {
      var u := r.0.payload.user;
      assert !Collides(store, u);
      forall i, j | 0 <= i < j < |r.1|
        ensures r.1[i].id != r.1[j].id && r.1[i].username != r.1[j].username && r.1[i].email != r.1[j].email
      {
        if j == |store| {
          assert r.1[j] == u;
          assert !(store[i].username == u.username || store[i].email == u.email);
        }
      }
    }
  }

  /** Logging in never creates duplicates: only a lastLogin changes. */
  lemma LoginPreservesWellFormed(store: Store, login: Option<string>, password: Option<string>, env: Env)
    requires WellFormed(store)
    ensures WellFormed(Login(store, login, password, env).1)
  {
  }

  /** Registering the same, already normalised username twice: the second
      attempt is a 409 conflict whatever email it brings. */
  lemma {:induction false} RegisterTwiceConflicts(store: Store, username: string, email: string, password: string,
                                                  email2: string, password2: string, env: Env, env2: Env)
    requires username != "" && email != "" && password != "" && email2 != "" && password2 != ""
    requires Trim(username) == username
    requires !env2.fault.LookupFails?
    requires Register(store, Some(username), Some(email), Some(password), env).0.Ok?
    ensures var after := Register(store, Some(username), Some(email), Some(password), env).1;
      Register(after, Some(username), Some(email2), Some(password2), env2).0.status == 409
  {
    var after := Register(store, Some(username), Some(email), Some(password), env).1;
    assert after[|store|].username == username;
    assert Matches(after[|store|], email2, username);
  }

  /** A username with surrounding blanks passes the duplicate check and is
      then stored trimmed, so without a unique index the collection ends up
      holding the same username twice. */
  lemma PaddedUsernameDuplicates(store: Store, env: Env)
    requires store == [User(1, "alice", "alice@x.com", "secret1", true, None)]
    requires env.newId == 2 && !env.uniqueIndex && env.fault.NoFault?
    ensures var r := Register(store, Some(" alice"), Some("bob@x.com"), Some("secret2"), env);
      r.0.Ok? && r.1[1].username == "alice" && !WellFormed(r.1)
  {
    assert " " + "alice" + [] == " alice";
    TrimOfPadded(" ", "alice", []);
    assert NoneMatch(store, "bob@x.com", " alice");
    var r := Register(store, Some(" alice"), Some("bob@x.com"), Some("secret2"), env);
    assert r.0.Ok?;
    assert r.1 == store + [r.0.payload.user];
    assert r.1[0].username == r.1[1].username;
  }

  /** An email that differs from a stored one only in letter case also
      passes the duplicate check; a unique index then turns it into a 500
      rather than the 409 the check would have given. */
  lemma MixedCaseEmailIsNotAConflict(store: Store, env: Env)
    requires store == [User(1, "alice", "alice@x.com", "secret1", true, None)]
    requires env.uniqueIndex && env.fault.NoFault?
    ensures var r := Register(store, Some("bob"), Some("Alice@x.com"), Some("secret2"), env);
      r.0 == Fail(500, ServerError, RegisterFailed) && r.1 == store
  {
    assert NoneMatch(store, "Alice@x.com", "bob");
    StoredAsLowerCase(env.newId);
    var u := NewUser(env.newId, "bob", "Alice@x.com", "secret2");
    assert store[0].email == u.email;
  }

  /** The mixed-case address is stored lower-cased. */
  lemma StoredAsLowerCase(id: UserId)
    ensures NewUser(id, "bob", "Alice@x.com", "secret2").email == "alice@x.com"
  {
    var e := "Alice@x.com";
    assert e[0] == 'A' && e[10] == 'm';
    TrimOfTrimmed(e);
    var t := ToLower(e);
    assert t[0] == 'a' && t[1] == 'l' && t[2] == 'i' && t[3] == 'c';
    assert t[4] == 'e' && t[5] == '@' && t[6] == 'x' && t[7] == '.';
    assert t[8] == 'c' && t[9] == 'o' && t[10] == 'm';
    assert t == "alice@x.com";
  }

  /** A user who has just registered can log in with the trimmed username,
      provided no other account claims that identifier. */
  lemma {:induction false} RegisterThenLogin(store: Store, username: string, email: string, password: string,
                                             env: Env, env2: Env)
    requires Register(store, Some(username), Some(email), Some(password), env).0.Ok?
    requires Trim(username) != ""
    requires forall i :: 0 <= i < |store| ==>
      store[i].email != ToLower(Trim(username)) && store[i].username != Trim(username)
    requires env2.fault.NoFault?
    requires env2.passwordMatches(NewUser(env.newId, username, email, password), password)
    ensures var after := Register(store, Some(username), Some(email), Some(password), env).1;
      var r := Login(after, Some(Trim(username)), Some(password), env2);
      r.0.Ok? && r.0.payload.user.id == env.newId && r.0.payload.token == env2.sign(env.newId)
  {
    var after := Register(store, Some(username), Some(email), Some(password), env).1;
    var u := NewUser(env.newId, username, email, password);
    var login := Trim(username);
    assert after == store + [u];
    var n := |store|;
    assert Matches(after[n], ToLower(login), login);
    forall j | 0 <= j < |after| && j != n
      ensures !Matches(after[j], ToLower(login), login)
    {
      assert after[j] == store[j];
    }
    FindOneSingle(after, ToLower(login), login, env2.choice, n);
  }
}

=== FILE: auth_context.dfy ===
/** The client's authentication context: the session it holds (`user`,
    `token`, `isLoading`), the copy of that session it keeps in storage, and
    the four transitions that change them, each as a pure function of the
    network's answer. */
module AuthContext {
  import opened Values
  import opened Storage

  const TokenKey := "authToken"
  const UserKey := "userData"
  const NetworkError := "Network error. Please try again."
  const LoginFallback := "Login failed"
  const RegisterFallback := "Registration failed"

  /** A user object as the server sent it, identified with its JSON text:
      `JSON.stringify` gives `json` back and `JSON.parse(json)` rebuilds it. */
  datatype UserObj = UserObj(json: string)

  datatype Session = Session(user: Option<UserObj>, token: Option<string>, isLoading: bool)

  /** The provider's state together with the storage it writes to. */
  datatype Client = Client(session: Session, device: Device)

  /** The state before the first `checkAuthStatus`. */
  const InitialSession := Session(None, None, true)

  /** `!!user && !!token`. */
  predicate IsAuthenticated(s: Session) {
    s.user.Some? && Truthy(s.token)
  }

  /** `data.data` of an auth reply. */
  datatype AuthData = AuthData(user: UserObj, token: string)

  /** The parsed body of an auth reply. */
  datatype AuthBody = AuthBody(success: bool, message: Option<string>, data: Option<AuthData>)

  /** What `fetch` and `response.json()` produce for a login or register
      request: a response (`body` is `None` when its JSON does not parse),
      or a rejection. */
  datatype AuthReply = Answered(ok: bool, body: Option<AuthBody>) | Unreachable

  /** What `fetch` produces for the profile or logout request. */
  datatype PlainReply = Responded(ok: bool) | Offline

  /** The `{ success, message }` that `login` and `register` resolve to.
      A success passes on the reply's `message`, which may be absent; a
      failure always carries a message. */
  datatype Outcome = Succeeded(note: Option<string>) | Failed(reason: string)

  /** What a component's `await login(...)` or `await register(...)`
      produces: the outcome, or an exception. */
  datatype Awaited = Resolved(outcome: Outcome) | Rejected

  /** A transition's result, with the `Authorization` header of the request
      it sent, if it sent one. */
  datatype Effect = Effect(client: Client, request: Option<string>)

  /** `clearAuthData`: forget the session, then remove both keys; a storage
      error stops the removals and is swallowed. */
  function ClearAuthData(c: Client): (r: Client)
    ensures r.session == Session(None, None, c.session.isLoading)
    ensures !IsAuthenticated(r.session)
    ensures r.device.platform == c.device.platform && r.device.faulty == c.device.faulty
    ensures Backed(c.device.platform) && !c.device.faulty ==>
      Lookup(r.device, TokenKey).None? && Lookup(r.device, UserKey).None?
    ensures forall k :: k != TokenKey && k != UserKey ==> Lookup(r.device, k) == Lookup(c.device, k)
  {
    var session := c.session.(user := None, token := None);
    match RemoveItem(c.device, TokenKey)
    case Threw => Client(session, c.device)
    case Done(d1) =>
      match RemoveItem(d1, UserKey)
      case Threw => Client(session, d1)
      case Done(d2) => Client(session, d2)
  }

  /** The `finally` of `checkAuthStatus`. */
  function Settle(c: Client): Client {
    c.(session := c.session.(isLoading := false))
  }

  /** `checkAuthStatus`: restore the session from storage and confirm it
      with the profile endpoint. `parses` says whether `JSON.parse` accepts
      the stored user text. */
  function CheckAuthStatus(c: Client, parses: bool, profile: PlainReply): (r: Effect)
    // loading is over on every path
    ensures !r.client.session.isLoading
    ensures r.client.device.platform == c.device.platform && r.client.device.faulty == c.device.faulty
    // a key missing from storage: nothing is sent and nothing changes
    ensures (GetItem(c.device, TokenKey).Done? && GetItem(c.device, UserKey).Done?
      && !(Truthy(GetItem(c.device, TokenKey).value) && Truthy(GetItem(c.device, UserKey).value))) ==>
        r == Effect(Settle(c), None)
    // a failing storage read clears the session
    ensures (GetItem(c.device, TokenKey).Threw? || GetItem(c.device, UserKey).Threw?) ==>
      r.request.None? && r.client.session == Session(None, None, false)
    // both keys present and the user parses: the profile request is sent ...
    ensures (GetItem(c.device, TokenKey).Done? && GetItem(c.device, UserKey).Done?
      && Truthy(GetItem(c.device, TokenKey).value) && Truthy(GetItem(c.device, UserKey).value) && parses) ==>
        r.request.Some?
    // ... only then, and it carries the stored token ...
    ensures r.request.Some? ==>
      && Truthy(Lookup(c.device, TokenKey)) && Truthy(Lookup(c.device, UserKey)) && parses
      && r.request.value == "Bearer " + Lookup(c.device, TokenKey).value
    // ... and the restored session survives exactly when the server accepts it
    ensures (r.request.Some? && profile == Responded(true)) ==>
      && r.client.session == Session(Some(UserObj(Lookup(c.device, UserKey).value)), Lookup(c.device, TokenKey), false)
      && r.client.device == c.device
    // the stored user fails to parse: the catch clears session and storage, and nothing is sent
    ensures (GetItem(c.device, TokenKey).Done? && GetItem(c.device, UserKey).Done?
      && Truthy(GetItem(c.device, TokenKey).value) && Truthy(GetItem(c.device, UserKey).value) && !parses) ==>
        && r.request.None? && r.client.session == Session(None, None, false)
        && Lookup(r.client.device, TokenKey).None? && Lookup(r.client.device, UserKey).None?
    ensures (r.request.Some? && profile != Responded(true)) ==>
      && r.client.session == Session(None, None, false)
      && Lookup(r.client.device, TokenKey).None? && Lookup(r.client.device, UserKey).None?
  {
    match GetItem(c.device, TokenKey)
    case Threw => Effect(Settle(ClearAuthData(c)), None)
    case Done(storedToken) =>
      match GetItem(c.device, UserKey)
      case Threw => Effect(Settle(ClearAuthData(c)), None)
      case Done(storedUser) =>
        if Truthy(storedToken) && Truthy(storedUser) then
          var withToken := c.(session := c.session.(token := storedToken));
          if !parses then
            Effect(Settle(ClearAuthData(withToken)), None)
          else
            var restored := withToken.(session := withToken.session.(user := Some(UserObj(storedUser.value))));
            var request := Some("Bearer " + storedToken.value);
            match profile
            case Responded(ok) =>
              if ok then Effect(Settle(restored), request)
              else Effect(Settle(ClearAuthData(restored)), request)
            case Offline => Effect(Settle(ClearAuthData(restored)), request)
        else
          Effect(Settle(c), None)
  }

  /** The reply is a success that carries the data to store. */
  predicate Accepted(reply: AuthReply) {
    && reply.Answered? && reply.ok && reply.body.Some?
    && reply.body.value.success && reply.body.value.data.Some?
  }

  /** The shared body of `login` and `register`; `fallback` is the message
      used when a rejection carries none. */
  function Authenticate(c: Client, reply: AuthReply, fallback: string): (r: (Client, Outcome))
    requires fallback != ""
    // success: the token and user are stored and become the session
    ensures r.1.Succeeded? <==> Accepted(reply) && !(Backed(c.device.platform) && c.device.faulty)
    ensures r.1.Succeeded? ==>
      var data := reply.body.value.data.value;
      && r.0.session == c.session.(user := Some(data.user), token := Some(data.token))
      && r.1.note == reply.body.value.message
      && (Backed(c.device.platform) ==>
            Lookup(r.0.device, TokenKey) == Some(data.token)
            && Lookup(r.0.device, UserKey) == Some(data.user.json))
    // failure: the session is untouched and the message is never empty
    ensures r.1.Failed? ==> r.0.session == c.session && r.1.reason != ""
    ensures (reply.Answered? && reply.body.Some? && !(reply.ok && reply.body.value.success)) ==>
      r == (c, Failed(OrElse(reply.body.value.message, fallback)))
    ensures (reply.Unreachable? || (reply.Answered? && reply.body.None?)) ==> r == (c, Failed(NetworkError))
    // an accepted reply that still fails threw (no `data`, or a storage write), and the catch reports a network error
    ensures (reply.Answered? && reply.ok && reply.body.Some? && reply.body.value.success && r.1.Failed?) ==>
      r.1.reason == NetworkError
    ensures r.0.device.platform == c.device.platform && r.0.device.faulty == c.device.faulty
    ensures forall k :: k != TokenKey && k != UserKey ==> Lookup(r.0.device, k) == Lookup(c.device, k)
  {
    match reply
    case Unreachable => (c, Failed(NetworkError))
    case Answered(ok, body) =>
      match body
      case None => (c, Failed(NetworkError))
      case Some(b) =>
        if ok && b.success then
          match b.data
          // destructuring `undefined` throws, and the error is caught
          case None => (c, Failed(NetworkError))
          case Some(data) =>
            match SetItem(c.device, TokenKey, data.token)
            case Threw => (c, Failed(NetworkError))
            case Done(d1) =>
              match SetItem(d1, UserKey, data.user.json)
              case Threw => (c.(device := d1), Failed(NetworkError))
              case Done(d2) =>
                var session := c.session.(user := Some(data.user), token := Some(data.token));
                (Client(session, d2), Succeeded(b.message))
        else
          (c, Failed(OrElse(b.message, fallback)))
  }

  /** `login(loginData, password)`; the credentials only shape the request,
      so the model starts from the reply. */
  function Login(c: Client, reply: AuthReply): (r: (Client, Outcome))
    ensures (reply.Answered? && reply.body.Some? && !(reply.ok && reply.body.value.success)) ==>
      r.1 == Failed(OrElse(reply.body.value.message, LoginFallback))
    ensures r.1.Succeeded? ==> Accepted(reply) && r.0.session.user == Some(reply.body.value.data.value.user)
  {
    Authenticate(c, reply, LoginFallback)
  }

  /** `register(username, email, password)`. */
  function Register(c: Client, reply: AuthReply): (r: (Client, Outcome))
    ensures (reply.Answered? && reply.body.Some? && !(reply.ok && reply.body.value.success)) ==>
      r.1 == Failed(OrElse(reply.body.value.message, RegisterFallback))
    ensures r.1.Succeeded? ==> Accepted(reply) && r.0.session.user == Some(reply.body.value.data.value.user)
  {
    Authenticate(c, reply, RegisterFallback)
  }

  /** `logout`: tell the server when a token is held, then clear whatever
      the server said. */
  function Logout(c: Client, reply: PlainReply): (r: Effect)
    ensures r.request.Some? <==> Truthy(c.session.token)
    ensures r.request.Some? ==> r.request.value == "Bearer " + c.session.token.value
    ensures r.client.session == Session(None, None, c.session.isLoading)
    ensures !IsAuthenticated(r.client.session)
    ensures Backed(c.device.platform) && !c.device.faulty ==>
      Lookup(r.client.device, TokenKey).None? && Lookup(r.client.device, UserKey).None?
  {
    // the reply, or its absence, does not change what happens next
    var request := if Truthy(c.session.token) then Some("Bearer " + c.session.token.value) else None;
    Effect(ClearAuthData(c), request)
  }

  /** A user is held exactly when a token is held. */
  predicate Paired(s: Session) {
    s.user.Some? <==> s.token.Some?
  }

  /** While a user is held, storage that works holds its token and user. */
  predicate InSync(c: Client) {
    Backed(c.device.platform) && !c.device.faulty && c.session.user.Some? ==>
      && Lookup(c.device, TokenKey) == c.session.token
      && Lookup(c.device, UserKey) == Some(c.session.user.value.json)
  }

  /** Every transition keeps user and token paired. */
  lemma TransitionsKeepPaired(c: Client, parses: bool, plain: PlainReply, reply: AuthReply)
    requires Paired(c.session)
    ensures Paired(CheckAuthStatus(c, parses, plain).client.session)
    ensures Paired(Login(c, reply).0.session)
    ensures Paired(Register(c, reply).0.session)
    ensures Paired(Logout(c, plain).client.session)
  {
  }

  /** Every transition keeps working storage in step with the session. */
  lemma TransitionsKeepInSync(c: Client, parses: bool, plain: PlainReply, reply: AuthReply)
    requires InSync(c)
    ensures InSync(CheckAuthStatus(c, parses, plain).client)
    ensures InSync(Login(c, reply).0)
    ensures InSync(Register(c, reply).0)
    ensures InSync(Logout(c, plain).client)
  {
  }

  /** A session established by `login` on working storage is restored by
      `checkAuthStatus` in a fresh provider, provided the server still
      accepts the token. */
  lemma LoginSurvivesRestart(c: Client, reply: AuthReply)
    requires Backed(c.device.platform) && !c.device.faulty
    requires Accepted(reply) && reply.body.value.data.value.token != ""
    requires reply.body.value.data.value.user.json != ""
    ensures var after := Login(c, reply).0;
      var restart := CheckAuthStatus(Client(InitialSession, after.device), true, Responded(true));
      && restart.client.session == after.session.(isLoading := false)
      && IsAuthenticated(restart.client.session)
  {
  }

  /** After `logout` on working storage, a restart finds nothing to restore
      and sends nothing. */
  lemma LogoutSurvivesRestart(c: Client, reply: PlainReply, parses: bool, profile: PlainReply)
    requires Backed(c.device.platform) && !c.device.faulty
    ensures var after := Logout(c, reply).client;
      var restart := CheckAuthStatus(Client(InitialSession, after.device), parses, profile);
      && restart.request.None?
      && restart.client.session == Session(None, None, false)
  {
  }
}

=== FILE: email_pattern.dfy ===
/** The e-mail pattern the registration form applies,
    `^\w+([.-]?\w+)*@\w+([.-]?\w+)*(\.\w{2,3})+$`, as a predicate over the
    language it denotes. */
module EmailPattern {

  /** `\w` without the `u` flag: ASCII letters, digits and `_`. */
  predicate IsWord(c: char) {
    ('a' <= c <= 'z') || ('A' <= c <= 'Z') || ('0' <= c <= '9') || c == '_'
  }

  /** The optional separator `[.-]`. */
  predicate IsSep(c: char) {
    c == '.' || c == '-'
  }

  predicate AllWord(s: string) {
    forall i :: 0 <= i < |s| ==> IsWord(s[i])
  }

  /** The language of `\w+([.-]?\w+)*`: word characters and separators,
      beginning and ending with a word character, never two separators in a
      row. */
  predicate DottedName(s: string) {
    && |s| >= 1
    && IsWord(s[0]) && IsWord(s[|s| - 1])
    && (forall i :: 0 <= i < |s| ==> IsWord(s[i]) || IsSep(s[i]))
    && (forall i :: 0 <= i < |s| - 1 ==> IsWord(s[i]) || IsWord(s[i + 1]))
  }

  /** `d` is a dotted name followed by `.` and a final label of exactly `n`
      word characters. */
  predicate EndsWithLabel(d: string, n: nat) {
    && n < |d|
    && d[|d| - n - 1] == '.'
    && DottedName(d[..|d| - n - 1])
    && AllWord(d[|d| - n..])
  }

  /** The language of `\w+([.-]?\w+)*(\.\w{2,3})+`. Every label but the last
      can be absorbed by the dotted name in front, so only the last part's
      length is constrained. */
  predicate Domain(d: string) {
    EndsWithLabel(d, 2) || EndsWithLabel(d, 3)
  }

  /** The whole pattern: a dotted name, `@`, a domain. */
  predicate IsEmail(s: string) {
    exists i :: 0 <= i < |s| && s[i] == '@' && DottedName(s[..i]) && Domain(s[i + 1..])
  }

  /** Appending a separator-joined label to a dotted name gives a dotted
      name; this is why repeated `(\.\w{2,3})` groups add nothing beyond the
      last one. */
  lemma {:induction false} DottedNameExtends(x: string, sep: char, part: string)
    requires DottedName(x) && IsSep(sep) && |part| >= 1 && AllWord(part)
    ensures DottedName(x + [sep] + part)
  {
    var s := x + [sep] + part;
    forall i | 0 <= i < |s| - 1
      ensures IsWord(s[i]) || IsWord(s[i + 1])
    {
      if i < |x| - 1 {
        assert s[i] == x[i] && s[i + 1] == x[i + 1];
      } else if i == |x| - 1 {
        assert s[i] == x[|x| - 1];
      } else {
        assert s[i + 1] == part[i + 1 - |x| - 1];
      }
    }
    forall i | 0 <= i < |s|
      ensures IsWord(s[i]) || IsSep(s[i])
    {
      if i < |x| {
        assert s[i] == x[i];
      } else if i > |x| {
        assert s[i] == part[i - |x| - 1];
      }
    }
    assert s[0] == x[0];
    assert s[|s| - 1] == part[|part| - 1];
  }

  /** A domain stays a domain when another short label is appended, as the
      `(\.\w{2,3})+` repetition allows. */
  lemma DomainExtends(d: string, part: string)
    requires Domain(d) && 2 <= |part| <= 3 && AllWord(part)
    ensures Domain(d + "." + part)
  {
    var n := if EndsWithLabel(d, 2) then 2 else 3;
    var k := |d| - n - 1;
    var tail := d[k + 1..];
    assert d == d[..k] + ['.'] + tail;
    DottedNameExtends(d[..k], '.', tail);
    var e := d + "." + part;
    assert e[..|e| - |part| - 1] == d;
    assert e[|e| - |part|..] == part;
    assert EndsWithLabel(e, |part|);
  }

  /** A dotted name has no `@`. */
  lemma NoAtInDottedName(x: string)
    requires DottedName(x)
    ensures '@' !in x
  {
    forall j | 0 <= j < |x|
      ensures x[j] != '@'
    {
      assert IsWord(x[j]) || IsSep(x[j]);
    }
  }

  /** A domain has no `@`. */
  lemma NoAtInDomain(d: string)
    requires Domain(d)
    ensures '@' !in d
  {
    var n := if EndsWithLabel(d, 2) then 2 else 3;
    var k := |d| - n - 1;
    NoAtInDottedName(d[..k]);
    forall j | 0 <= j < |d|
      ensures d[j] != '@'
    {
      if j < k {
        assert d[j] == d[..k][j];
      } else if j > k {
        assert d[j] == d[|d| - n..][j - k - 1];
      }
    }
  }

  /** The pattern can only match at the one `@`: an address with an
      `@`-free local part matches exactly when both halves do. */
  lemma {:induction false} EmailSplit(local: string, domain: string)
    requires '@' !in local
    ensures IsEmail(local + "@" + domain) <==> DottedName(local) && Domain(domain)
  {
    var s := local + "@" + domain;
    var n := |local|;
    assert s[n] == '@' && s[..n] == local && s[n + 1..] == domain;
    if IsEmail(s) {
      var i :| 0 <= i < |s| && s[i] == '@' && DottedName(s[..i]) && Domain(s[i + 1..]);
      NoAtInDottedName(s[..i]);
    }
  }

  /** Whatever the pattern accepts holds exactly one `@`. */
  lemma {:induction false} OneAt(s: string)
    requires IsEmail(s)
    ensures multiset(s)['@'] == 1
  {
    var i :| 0 <= i < |s| && s[i] == '@' && DottedName(s[..i]) && Domain(s[i + 1..]);
    var local, domain := s[..i], s[i + 1..];
    SplitAt(s, i);
    NoAtInDottedName(local);
    NoAtInDomain(domain);
    CountAround(local, domain);
  }

  /** A string is what comes before, at and after any of its positions. */
  lemma SplitAt(s: string, i: nat)
    requires i < |s|
    ensures s == s[..i] + [s[i]] + s[i + 1..]
  {
  }

  /** Joining two `@`-free strings with `@` gives one `@`. */
  lemma CountAround(x: string, y: string)
    requires '@' !in x && '@' !in y
    ensures multiset(x + ['@'] + y)['@'] == 1
  {
    assert multiset(x + ['@'] + y) == multiset(x) + multiset(['@']) + multiset(y);
  }

  /** `s` ends with `.` and a final label of `n` word characters. */
  predicate LabelEnd(s: string, n: nat) {
    n < |s| && s[|s| - n - 1] == '.' && AllWord(s[|s| - n..])
  }

  /** Whatever the pattern accepts ends with `.` and a final label of two or
      three word characters. */
  lemma FinalLabel(s: string)
    requires IsEmail(s)
    ensures LabelEnd(s, 2) || LabelEnd(s, 3)
  {
    var i :| 0 <= i < |s| && s[i] == '@' && DottedName(s[..i]) && Domain(s[i + 1..]);
    var d := s[i + 1..];
    var n := if EndsWithLabel(d, 2) then 2 else 3;
    assert s == s[..i + 1] + d;
    LabelEndSuffix(s[..i + 1], d, n);
  }

  /** A label ending survives putting anything in front. */
  lemma LabelEndSuffix(p: string, d: string, n: nat)
    requires EndsWithLabel(d, n)
    ensures LabelEnd(p + d, n)
  {
    var s := p + d;
    assert s[|s| - n..] == d[|d| - n..];
    assert s[|s| - n - 1] == d[|d| - n - 1];
  }

  /** An ordinary address is accepted. */
  lemma AcceptsPlainAddress()
    ensures IsEmail("jo.li@ab.cd.com")
  {
    var d := "ab.cd.com";
    assert d[..5] == "ab.cd" && d[6..] == "com";
    assert EndsWithLabel(d, 3);
    EmailSplit("jo.li", d);
    assert "jo.li" + "@" + d == "jo.li@ab.cd.com";
  }

  /** A four-letter top-level label such as `.info` is rejected. */
  lemma RejectsFourLetterLabel()
    ensures !IsEmail("jane@mail.info")
  {
    var d := "mail.info";
    assert d[6] == 'n' && d[5] == 'i';
    assert !Domain(d);
    EmailSplit("jane", d);
    assert "jane" + "@" + d == "jane@mail.info";
  }

  /** Two separators in a row in the local part are rejected. */
  lemma RejectsDoubledSeparator()
    ensures !IsEmail("jane..doe@mail.com")
  {
    assert "jane..doe" + "@" + "mail.com" == "jane..doe@mail.com";
    var x := "jane..doe";
    assert !(IsWord(x[4]) || IsWord(x[5]));
    EmailSplit(x, "mail.com");
  }
}

=== FILE: end_to_end.dfy ===
/** How the client's requests meet the servers' guards. */
module EndToEnd {
  import opened Values
  import opened Text
  import opened Http
  import AuthContext
  import RegisterForm
  import LoginForm
  import NameForm
  import Accounts
  import NameSchema
  import NameRoutes
  import NameLog

  /** A name the form sends passes the backend's guard and, when it fits the
      schema and the write succeeds, is stored exactly as sent. */
  lemma NameFormBodyStoredAsSent(s: NameForm.FormState, token: Option<string>, reply: NameForm.NameReply,
                                 store: seq<NameSchema.NameDoc>, env: NameRoutes.SaveEnv)
    requires NameForm.HandleSubmit(s, token, reply).1.Some?
    requires |Trim(s.fullName)| <= NameSchema.MaxLength && !env.writeFails
    ensures var body := NameForm.HandleSubmit(s, token, reply).1.value.fullName;
      var r := NameRoutes.PostName(store, Some(body), env);
      && r.0.Ok? && r.0.payload.name == body
      && r.1[|store|].fullName == body
  {
    var body := Trim(s.fullName);
    TrimIdempotent(s.fullName);
    TrimSpec(s.fullName);
  }

  /** The same name sent to the file-backed server is logged on a line that
      begins with it. */
  lemma NameFormBodyLoggedAsSent(s: NameForm.FormState, token: Option<string>, reply: NameForm.NameReply,
                                 f: NameLog.LogFile, stamp: string, replyStamp: string)
    requires NameForm.HandleSubmit(s, token, reply).1.Some?
    ensures var body := NameForm.HandleSubmit(s, token, reply).1.value.fullName;
      var r := NameLog.PostName(f, Some(body), stamp, replyStamp, false);
      && r.0.Ok?
      && r.1 == NameLog.Append(f, body + NameLog.Separator + stamp + "\n")
  {
    TrimIdempotent(s.fullName);
    TrimSpec(s.fullName);
  }

  /** A registration the form lets through passes the backend's guard, so
      only the database decides it; the account it creates keeps the
      username exactly as sent. */
  lemma RegisterFormCallPassesGuard(s: RegisterForm.FormState, answer: AuthContext.Awaited,
                                    store: Accounts.Store, env: Accounts.Env)
    requires RegisterForm.HandleRegister(s, answer).1.Some?
    ensures var call := RegisterForm.HandleRegister(s, answer).1.value;
      var r := Accounts.Register(store, Some(call.username), Some(call.email), Some(call.password), env);
      && (r.0.Ok? <==>
            && env.fault.NoFault?
            && Accounts.NoneMatch(store, call.email, call.username)
            && !(env.uniqueIndex
                 && Accounts.Collides(store, Accounts.NewUser(env.newId, call.username, call.email, call.password))))
      && (r.0.Ok? ==> r.0.payload.user.username == call.username
                      && r.0.payload.user.email == ToLower(call.email))
  {
    var f := s.fields;
    RegisterForm.ValidateFormFirstFailure(f);
    assert !RegisterForm.Fails(f, RegisterForm.UsernameRequired);
    assert !RegisterForm.Fails(f, RegisterForm.EmailRequired);
    assert !RegisterForm.Fails(f, RegisterForm.PasswordRequired);
    TrimIdempotent(f.username);
    TrimIdempotent(f.email);
  }

  /** A login the form lets through passes the backend's guard. */
  lemma LoginFormCallPassesGuard(s: LoginForm.FormState, answer: AuthContext.Awaited,
                                 store: Accounts.Store, env: Accounts.Env)
    requires LoginForm.HandleLogin(s, answer).1.Some?
    ensures var call := LoginForm.HandleLogin(s, answer).1.value;
      Accounts.Login(store, Some(call.loginData), Some(call.password), env).0
        != Fail(400, ValidationError, Accounts.LoginRequired)
  {
    TrimSpec(s.password);
    TrimSpec(s.loginData);
  }
}

=== FILE: http.dfy ===
/** The two shapes of a JSON reply the Express handlers send. */
module Http {

  /** `res.status(status).json(payload)` on success, or
      `res.status(status).json({ error, message })` on failure. */
  datatype Reply<+T> =
    | Ok(status: nat, payload: T)
    | Fail(status: nat, error: string, message: string)

  /** The `error` of a 400 for a rejected request body. */
  const ValidationError := "Validation error"
  /** The `error` of a 500 the backend handlers report themselves. */
  const ServerError := "Server error"
}

=== FILE: login_form.dfy ===
/** The login form: its submit guard and what it does with the context's
    `login`. */
module LoginForm {
  import opened Values
  import opened Text
  import opened AuthContext

  datatype FormState = FormState(loginData: string, password: string, message: string, isLoading: bool)

  const Incomplete := "Please enter username/email and password."
  const Welcome := "Login successful!"
  const Unexpected := "An unexpected error occurred."

  /** The arguments `login` is called with. */
  datatype LoginCall = LoginCall(loginData: string, password: string)

  /** `handleLogin`, given what the awaited `login` call produces. Returns
      the new state and the call made, if any. */
  function HandleLogin(s: FormState, answer: Awaited): (r: (FormState, Option<LoginCall>))
    // either field blank once trimmed: a message, no call, nothing else changes
    ensures (Trim(s.loginData) == "" || Trim(s.password) == "") ==> r == (s.(message := Incomplete), None)
    // otherwise exactly one call: trimmed identifier, password as typed
    ensures (Trim(s.loginData) != "" && Trim(s.password) != "") ==>
      && r.1 == Some(LoginCall(Trim(s.loginData), s.password))
      && !r.0.isLoading
      && (answer.Resolved? && answer.outcome.Succeeded? ==>
            r.0.message == Welcome && r.0.loginData == "" && r.0.password == "")
      && (answer.Resolved? && answer.outcome.Failed? ==>
            r.0.message == answer.outcome.reason && r.0.loginData == s.loginData && r.0.password == s.password)
      && (answer.Rejected? ==>
            r.0.message == Unexpected && r.0.loginData == s.loginData && r.0.password == s.password)
  {
    if Trim(s.loginData) == "" || Trim(s.password) == "" then
      (s.(message := Incomplete), None)
    else
      var call := LoginCall(Trim(s.loginData), s.password);
      var after :=
        match answer
        case Resolved(Succeeded(_)) => s.(loginData := "", password := "", message := Welcome)
        case Resolved(Failed(reason)) => s.(message := reason)
        case Rejected => s.(message := Unexpected);
      (after.(isLoading := false), Some(call))
  }

  /** The guard trims the password but the call does not: a password with
      surrounding blanks is sent with them. */
  lemma PaddedPasswordSentAsTyped(s: FormState, answer: Awaited)
    requires s.loginData == "alice" && s.password == " pw "
    ensures HandleLogin(s, answer).1 == Some(LoginCall("alice", " pw "))
  {
    TrimOfTrimmed("alice");
    assert " pw " == " " + "pw" + " ";
    TrimOfPadded(" ", "pw", " ");
  }

  /** A blank-only password is refused before any call, although the
      registration form accepts one. */
  lemma BlankPasswordNeverSent(s: FormState, answer: Awaited)
    requires AllSpace(s.password)
    ensures HandleLogin(s, answer).1.None?
  {
    TrimSpec(s.password);
  }
}

=== FILE: name_form.dfy ===
/** The name form: its submit guard, the request it builds and how it reads
    the reply; and the greeting shown above it. */
module NameForm {
  import opened Values
  import opened Text
  import opened AuthContext

  datatype FormState = FormState(fullName: string, message: string, isLoading: bool)

  const InvalidName := "Please enter a valid name."
  const Saved := "Name saved successfully!"
  const SaveFallback := "Error saving the name."

  /** The POST request to the names endpoint. */
  datatype NameRequest = NameRequest(headers: map<string, string>, fullName: string)

  /** What `fetch` and `response.json()` produce: a response whose body may
      fail to parse (`None`), or a rejection. */
  datatype NameReply = Replied(ok: bool, message: Option<Option<string>>) | Unreachable

  /** The request headers: JSON, plus a bearer token when one is held. */
  function Headers(token: Option<string>): (h: map<string, string>)
    ensures "Content-Type" in h && h["Content-Type"] == "application/json"
    ensures "Authorization" in h <==> Truthy(token)
    ensures "Authorization" in h ==> h["Authorization"] == "Bearer " + token.value
    ensures h.Keys <= {"Content-Type", "Authorization"}
  {
    var base := map["Content-Type" := "application/json"];
    if Truthy(token) then base["Authorization" := "Bearer " + token.value] else base
  }

  /** `handleSubmit`, given the held token and the reply. Returns the new
      state and the request sent, if any. */
  function HandleSubmit(s: FormState, token: Option<string>, reply: NameReply): (r: (FormState, Option<NameRequest>))
    // a blank name: a message and no request
    ensures Trim(s.fullName) == "" ==> r == (s.(message := InvalidName), None)
    // otherwise the trimmed name is sent with the right headers
    ensures Trim(s.fullName) != "" ==>
      && r.1 == Some(NameRequest(Headers(token), Trim(s.fullName)))
      && !r.0.isLoading
      && (reply.Replied? && reply.message.Some? && reply.ok ==> r.0 == FormState("", Saved, false))
      && (reply.Replied? && reply.message.Some? && !reply.ok ==>
            r.0 == FormState(s.fullName, OrElse(reply.message.value, SaveFallback), false))
      && (reply.Unreachable? || reply.message.None? ==>
            r.0 == FormState(s.fullName, NetworkError, false))
  {
    if Trim(s.fullName) == "" then
      (s.(message := InvalidName), None)
    else
      var request := NameRequest(Headers(token), Trim(s.fullName));
      var after :=
        match reply
        case Unreachable => s.(message := NetworkError)
        case Replied(ok, body) =>
          match body
          // `response.json()` rejects before `ok` is looked at
          case None => s.(message := NetworkError)
          case Some(message) =>
            if ok then s.(fullName := "", message := Saved)
            else s.(message := OrElse(message, SaveFallback));
      (after.(isLoading := false), Some(request))
  }

  /** `isAuthenticated && user`: the greeting is shown. */
  predicate ShowsGreeting(s: Session) {
    IsAuthenticated(s) && s.user.Some?
  }

  /** The greeting is shown exactly for an authenticated session, and a
      request from such a session carries its token. */
  lemma GreetingMeansToken(s: Session)
    ensures ShowsGreeting(s) <==> IsAuthenticated(s)
    ensures ShowsGreeting(s) ==> "Authorization" in Headers(s.token)
  {
  }
}

=== FILE: name_log.dfy ===
/** The file-backed server's names endpoints, which keep the names in a text
    file, one `name - timestamp` line per saved name. */
module NameLog {
  import opened Values
  import opened Text
  import opened Http

  /** `names.txt`, which does not exist until the first name is saved. */
  datatype LogFile = Missing | Present(text: string)

  const Separator := " - "

  /** The reply to a saved name: its trimmed form and a clock reading taken
      when the reply is built. */
  datatype SavedEntry = SavedEntry(message: string, name: string, timestamp: string)

  /** The line appended for a name: the trimmed name, ` - `, the ISO time,
      and a line break. */
  function Entry(fullName: string, stamp: string): (e: string)
    ensures var prefix := Trim(fullName) + Separator;
      |prefix| < |e| && e[..|prefix|] == prefix
    ensures e[|e| - 1] == '\n'
  {
    Trim(fullName) + Separator + stamp + "\n"
  }

  /** `fs.appendFile`, which creates the file when it is missing. */
  function Append(f: LogFile, s: string): (g: LogFile)
    ensures g.Present? && g.text == (if f.Present? then f.text else "") + s
  {
    match f
    case Missing => Present(s)
    case Present(t) => Present(t + s)
  }

  /** `POST /api/names`. `stamp` is the time written to the file, `replyStamp`
      the later one put in the reply, `appendFails` an error from the file
      system. */
  function PostName(f: LogFile, fullName: Option<string>, stamp: string, replyStamp: string, appendFails: bool)
    : (r: (Reply<SavedEntry>, LogFile))
    ensures (!Truthy(fullName) || Trim(fullName.value) == "") ==>
      r == (Fail(400, "Invalid input", "Full name is required and cannot be empty"), f)
    ensures r.0.Fail? ==> r.1 == f
    ensures (Truthy(fullName) && Trim(fullName.value) != "" && appendFails) ==>
      r.0 == Fail(500, ServerError, "Error saving the name to file")
    ensures r.0.Ok? ==>
      && r.0.status == 200
      && r.0.payload == SavedEntry("Name saved successfully!", Trim(fullName.value), replyStamp)
      && r.1 == Append(f, Entry(fullName.value, stamp))
  {
    if !Truthy(fullName) || Trim(fullName.value) == "" then
      (Fail(400, "Invalid input", "Full name is required and cannot be empty"), f)
    else if appendFails then
      (Fail(500, ServerError, "Error saving the name to file"), f)
    else
      (Ok(200, SavedEntry("Name saved successfully!", Trim(fullName.value), replyStamp)),
       Append(f, Entry(fullName.value, stamp)))
  }

  /** `GET /api/names`. `readFails` is a read error other than the file
      not existing. */
  function ReadNames(f: LogFile, readFails: bool): (r: Reply<seq<string>>)
    ensures f.Missing? ==> r == Ok(200, [])
    ensures (f.Present? && readFails) ==> r == Fail(500, ServerError, "Error reading names file")
    ensures r.Ok? ==> r.status == 200 && forall k :: 0 <= k < |r.payload| ==> '\n' !in r.payload[k] && Trim(r.payload[k]) != ""
  {
    match f
    case Missing => Ok(200, [])
    case Present(t) =>
      if readFails then Fail(500, ServerError, "Error reading names file")
      else
        NonBlankSublist(Split(t, '\n'));
        Ok(200, NonBlank(Split(t, '\n')))
  }

  /** The lines of a file's text as the read handler returns them. */
  function Lines(t: string): seq<string> {
    NonBlank(Split(t, '\n'))
  }

  /** Text that is empty or ends at a line break. */
  predicate Complete(t: string) {
    t == [] || t[|t| - 1] == '\n'
  }

  /** Appending a non-blank line to complete text adds exactly that line to
      what is read back. */
  lemma {:induction false} ReadAfterAppend(t: string, line: string)
    requires Complete(t) && '\n' !in line && Trim(line) != ""
    ensures Lines(t + line + "\n") == Lines(t) + [line]
  {
    var p := CompleteSplit(t, line);
    NonBlankKeepsAll([line]);
    NonBlankDropsAll([""]);
    assert Trim("") == "" by { TrimSpec(""); }
    NonBlankConcat(p, [""]);
    assert p + [line] + [""] == (p + [line]) + [""];
    NonBlankConcat(p + [line], [""]);
    NonBlankConcat(p, [line]);
  }

  /** Complete text splits into its lines and a final empty piece; appending
      a line puts it just before that piece. */
  lemma CompleteSplit(t: string, line: string) returns (p: seq<string>)
    requires Complete(t) && '\n' !in line
    ensures Split(t, '\n') == p + [""]
    ensures Split(t + line + "\n", '\n') == p + [line] + [""]
  {
    SplitLine(line);
    if t == [] {
      p := [];
      assert t + line + "\n" == line + "\n";
    } else {
      var u := t[..|t| - 1];
      p := Split(u, '\n');
      assert t == u + ['\n'] + [];
      SplitAround(u, '\n', []);
      assert t + line + "\n" == u + ['\n'] + (line + "\n");
      SplitAround(u, '\n', line + "\n");
    }
  }

  /** One line and its break split into the line and an empty piece. */
  lemma SplitLine(line: string)
    requires '\n' !in line
    ensures Split(line + "\n", '\n') == [line, ""]
  {
    SplitWithoutSeparator(line, '\n');
    SplitAround(line, '\n', []);
    assert line + "\n" == line + ['\n'] + [];
  }

  /** The line an accepted name produces is one line and is not blank. */
  lemma EntryLine(fullName: string, stamp: string)
    requires Trim(fullName) != "" && '\n' !in fullName && '\n' !in stamp
    ensures var line := Trim(fullName) + Separator + stamp;
      && Entry(fullName, stamp) == line + "\n"
      && '\n' !in line && Trim(line) != ""
  {
    var m := Trim(fullName);
    var line := m + Separator + stamp;
    TrimStartSpec(fullName);
    TrimEndSpec(TrimStart(fullName));
    TrimSpec(fullName);
    TrimSpec(line);
    assert line[0] == m[0];
    assert '\n' !in m by {
      forall i | 0 <= i < |m| ensures m[i] != '\n' {
        assert m[i] == fullName[|fullName| - |TrimStart(fullName)| + i];
      }
    }
  }

  /** Saves each name in turn, starting from `f`; every name must pass the
      guard and every write succeed. */
  function PostAll(f: LogFile, names: seq<string>, stamps: seq<string>): LogFile
    requires |names| == |stamps|
    decreases |names|
  {
    if names == [] then f
    else
      var g := PostName(f, Some(names[0]), stamps[0], stamps[0], false).1;
      PostAll(g, names[1..], stamps[1..])
  }

  /** The lines a sequence of saves writes, in order. */
  function Logged(names: seq<string>, stamps: seq<string>): (r: seq<string>)
    requires |names| == |stamps|
    ensures |r| == |names|
    ensures forall i :: 0 <= i < |r| ==> r[i] == Trim(names[i]) + Separator + stamps[i]
    decreases |names|
  {
    if names == [] then []
    else [Trim(names[0]) + Separator + stamps[0]] + Logged(names[1..], stamps[1..])
  }

  /** Saving `k` single-line names into a fresh log and reading it back
      gives `k` lines (none when nothing was saved, as the file is then
      missing), the i-th beginning with the i-th trimmed name and
      ` - `. */
  lemma RoundTrip(names: seq<string>, stamps: seq<string>)
    requires |names| == |stamps|
    requires Loggable(names, stamps)
    ensures var r := ReadNames(PostAll(Missing, names, stamps), false);
      && r.Ok? && |r.payload| == |names|
      && forall i :: 0 <= i < |names| ==> r.payload[i] == Trim(names[i]) + Separator + stamps[i]
  {
    if names != [] {
      PostAllFromMissing(names, stamps);
      RoundTripFrom("", names, stamps);
      assert Split("", '\n') == [""];
      NonBlankDropsAll([""]) by { TrimSpec(""); }
    }
  }

  /** Every name passes the guard and neither names nor times hold a line
      break. */
  predicate Loggable(names: seq<string>, stamps: seq<string>)
    requires |names| == |stamps|
  {
    forall i :: 0 <= i < |names| ==> Trim(names[i]) != "" && '\n' !in names[i] && '\n' !in stamps[i]
  }

  /** The lines read after saving `names` on top of complete text `t`. */
  lemma {:induction false} RoundTripFrom(t: string, names: seq<string>, stamps: seq<string>)
    requires Complete(t) && |names| == |stamps|
    requires Loggable(names, stamps)
    ensures PostAll(Present(t), names, stamps).Present?
    ensures Lines(PostAll(Present(t), names, stamps).text) == Lines(t) + Logged(names, stamps)
    decreases |names|
  {
    if names == [] {
      assert Lines(t) + [] == Lines(t);
    } else {
      EntryLine(names[0], stamps[0]);
      var line := Trim(names[0]) + Separator + stamps[0];
      var t2 := t + line + "\n";
      PostAllStep(t, names, stamps);
      ReadAfterAppend(t, line);
      assert Loggable(names[1..], stamps[1..]) by {
        forall i | 0 <= i < |names| - 1
          ensures Trim(names[1..][i]) != "" && '\n' !in names[1..][i] && '\n' !in stamps[1..][i]
        {
          assert names[1..][i] == names[i + 1] && stamps[1..][i] == stamps[i + 1];
        }
      }
      RoundTripFrom(t2, names[1..], stamps[1..]);
      var rest := Logged(names[1..], stamps[1..]);
      assert Logged(names, stamps) == [line] + rest;
      ConcatAssoc(Lines(t), [line], rest);
    }
  }

  /** One step of `PostAll` on an accepted name. */
  lemma PostAllStep(t: string, names: seq<string>, stamps: seq<string>)
    requires |names| == |stamps| && |names| > 0 && Trim(names[0]) != ""
    ensures PostAll(Present(t), names, stamps)
      == PostAll(Present(t + (Trim(names[0]) + Separator + stamps[0]) + "\n"), names[1..], stamps[1..])
  {
    TrimSpec(names[0]);
    assert t + Entry(names[0], stamps[0]) == t + (Trim(names[0]) + Separator + stamps[0]) + "\n";
  }

  /** Saving onto a missing file is saving onto an empty one. */
  lemma PostAllFromMissing(names: seq<string>, stamps: seq<string>)
    requires |names| == |stamps| && |names| > 0
    requires Trim(names[0]) != ""
    ensures PostAll(Missing, names, stamps) == PostAll(Present(""), names, stamps)
  {
    assert Append(Missing, Entry(names[0], stamps[0])) == Append(Present(""), Entry(names[0], stamps[0]));
  }
}

=== FILE: name_routes.dfy ===
/** The backend's names routes over MongoDB: saving a name, listing names
    newest first a page at a time, fetching one by id; and the final error
    handler. */
module NameRoutes {
  import opened Values
  import opened Text
  import opened Http
  import opened NameSchema

  const InvalidInput := "Invalid input"
  const NameRequired := "Full name is required and cannot be empty"
  const SaveFailed := "Error saving the name to database"
  const ListFailed := "Error retrieving names from database"
  const FetchFailed := "Error retrieving name from database"
  const SavedMessage := "Name saved successfully!"

  /** The `data` of a successful save; `timestamp` is `createdAt` as an ISO
      string, here the same abstract instant. */
  datatype SavedName = SavedName(message: string, id: DocId, name: string, createdAt: Time, timestamp: Time)

  /** What the save handler consults besides the request body. */
  datatype SaveEnv = SaveEnv(
    newId: DocId,
    /** the clock when the document is built, and when it is saved */
    builtAt: Time,
    savedAt: Time,
    /** the database rejects the write for a reason other than validation */
    writeFails: bool,
    /** the text of mongoose's ValidationError for a failed validator */
    describe: SchemaError -> string)

  /** `POST /api/names`. */
  function PostName(store: seq<NameDoc>, fullName: Option<string>, env: SaveEnv): (r: (Reply<SavedName>, seq<NameDoc>))
    ensures (!Truthy(fullName) || Trim(fullName.value) == "") ==> r == (Fail(400, InvalidInput, NameRequired), store)
    ensures r.0.Fail? ==> r.1 == store
    // the guard leaves only the length validator able to fail
    ensures (r.0.Fail? && r.0.error == ValidationError) ==> r.0.status == 400 && r.0.message == env.describe(TooLong)
    ensures Truthy(fullName) && |Trim(fullName.value)| > MaxLength ==>
      r.0 == Fail(400, ValidationError, env.describe(TooLong))
    // a valid name the database refuses to write is a server error
    ensures Truthy(fullName) && 1 <= |Trim(fullName.value)| <= MaxLength && env.writeFails ==>
      r.0 == Fail(500, ServerError, SaveFailed)
    ensures r.0.Ok? <==> Truthy(fullName) && 1 <= |Trim(fullName.value)| <= MaxLength && !env.writeFails
    ensures r.0.Ok? ==>
      && r.0.status == 201
      && r.1 == store + [NameDoc(env.newId, Trim(fullName.value), env.builtAt, env.savedAt)]
      && r.0.payload == SavedName(SavedMessage, env.newId, Trim(fullName.value), env.builtAt, env.builtAt)
  {
    if !Truthy(fullName) || Trim(fullName.value) == "" then
      (Fail(400, InvalidInput, NameRequired), store)
    else
      TrimIdempotent(fullName.value);
      match Save(Create(env.newId, Trim(fullName.value), env.builtAt), env.savedAt)
      case Invalid(e) => (Fail(400, ValidationError, env.describe(e)), store)
      case Saved(d) =>
        if env.writeFails then (Fail(500, ServerError, SaveFailed), store)
        else (Ok(201, SavedName(SavedMessage, d.id, d.fullName, d.createdAt, d.createdAt)), store + [d])
  }

  /** Newer documents come first. */
  predicate NewestFirst(s: seq<NameDoc>) {
    forall i, j :: 0 <= i < j < |s| ==> s[i].createdAt >= s[j].createdAt
  }

  /** Places `d` in a newest-first sequence. */
  function Insert(d: NameDoc, s: seq<NameDoc>): (r: seq<NameDoc>)
    requires NewestFirst(s)
    ensures NewestFirst(r)
    ensures multiset(r) == multiset(s) + multiset{d}
    ensures |r| == |s| + 1
    ensures r[0] == d || (s != [] && r[0] == s[0])
    decreases |s|
  {
    if s == [] || d.createdAt >= s[0].createdAt then
      NewestFirstCons(d, s);
      [d] + s
    else
      var rest := Insert(d, s[1..]);
      assert s == [s[0]] + s[1..];
      NewestFirstCons(s[0], rest);
      [s[0]] + rest
  }

  /** A document no older than the head of a newest-first sequence can go
      in front of it. */
  lemma NewestFirstCons(x: NameDoc, s: seq<NameDoc>)
    requires NewestFirst(s) && (s == [] || x.createdAt >= s[0].createdAt)
    ensures NewestFirst([x] + s)
  {
    var r := [x] + s;
    forall i, j | 0 <= i < j < |r|
      ensures r[i].createdAt >= r[j].createdAt
    {
      if i == 0 && j > 1 {
        assert r[j] == s[j - 1];
      }
    }
  }

  /** `.sort({ createdAt: -1 })`. Documents with equal `createdAt` keep their
      stored order; the database promises no particular order for them. */
  function SortNewest(s: seq<NameDoc>): (r: seq<NameDoc>)
    ensures NewestFirst(r)
    ensures multiset(r) == multiset(s)
    ensures |r| == |s|
    decreases |s|
  {
    if s == [] then []
    else
      assert s == [s[0]] + s[1..];
      Insert(s[0], SortNewest(s[1..]))
  }

  function Min(a: int, b: int): int {
    if a <= b then a else b
  }

  /** `.limit(limit).skip(skip)` over the sorted documents: drop `skip`,
      then keep `limit`; a limit of 0 means no limit and a negative one
      keeps `-limit`. */
  function Window<T>(xs: seq<T>, skip: nat, limit: int): (r: seq<T>)
    ensures limit != 0 ==> |r| <= if limit > 0 then limit else -limit
    ensures limit != 0 && skip <= |xs| ==> |r| == Min(if limit > 0 then limit else -limit, |xs| - skip)
    ensures skip <= |xs| ==> skip + |r| <= |xs| && r == xs[skip..skip + |r|]
    ensures skip >= |xs| ==> r == []
    ensures limit == 0 ==> r == xs[Min(skip, |xs|)..]
  {
    var rest := xs[Min(skip, |xs|)..];
    var n := if limit > 0 then limit else -limit;
    if limit == 0 then rest else rest[..Min(n, |rest|)]
  }

  /** `Math.ceil(total / limit)`; `None` when it is not finite (a limit of
      0), which JSON writes as `null`. */
  function TotalPages(total: nat, limit: int): (r: Option<int>)
    ensures r.None? <==> limit == 0
    ensures limit > 0 ==> r.value >= 0 && (r.value - 1) * limit < total <= r.value * limit
    // rounding up a non-positive quotient: the least r with r * limit <= total
    ensures limit < 0 ==> r.value <= 0 && r.value * limit <= total < (r.value - 1) * limit
  {
    if limit == 0 then None
    else if limit > 0 then Some((total + limit - 1) / limit)
    else Some(-(total / -limit))
  }

  /** The query string, its numbers already read; `None` for absent. */
  datatype Query = Query(limit: Option<int>, page: Option<int>)

  datatype Listing = Listing(count: nat, totalCount: nat, currentPage: int, totalPages: Option<int>, data: seq<NameDoc>)

  /** `(page - 1) * limit`. */
  function Skip(page: int, limit: int): int {
    (page - 1) * limit
  }

  /** A window of a newest-first sequence is newest first. */
  lemma WindowNewestFirst(xs: seq<NameDoc>, skip: nat, limit: int)
    requires NewestFirst(xs)
    ensures NewestFirst(Window(xs, skip, limit))
  {
    var w := Window(xs, skip, limit);
    if skip <= |xs| {
      forall i, j | 0 <= i < j < |w|
        ensures w[i].createdAt >= w[j].createdAt
      {
        assert w[i] == xs[skip + i] && w[j] == xs[skip + j];
      }
    }
  }

  const DefaultLimit := 50
  const DefaultPage := 1

  /** `GET /api/names`. `fails` stands for the database rejecting the
      query; a negative skip is rejected the same way. */
  function ListNames(store: seq<NameDoc>, q: Query, fails: bool): (r: Reply<Listing>)
    ensures r.Fail? <==> fails || Skip(q.page.GetOr(DefaultPage), q.limit.GetOr(DefaultLimit)) < 0
    ensures r.Fail? ==> r == Fail(500, ServerError, ListFailed)
    ensures r.Ok? ==>
      var limit, page := q.limit.GetOr(DefaultLimit), q.page.GetOr(DefaultPage);
      && r.status == 200
      && r.payload.count == |r.payload.data|
      && r.payload.totalCount == |store|
      && r.payload.currentPage == page
      && r.payload.totalPages == TotalPages(|store|, limit)
      && r.payload.data == Window(SortNewest(store), Skip(page, limit), limit)
      && (limit > 0 ==> r.payload.count <= limit)
      && NewestFirst(r.payload.data)
  {
    var limit := q.limit.GetOr(DefaultLimit);
    var page := q.page.GetOr(DefaultPage);
    var skip := Skip(page, limit);
    if fails || skip < 0 then Fail(500, ServerError, ListFailed)
    else
      var data := Window(SortNewest(store), skip, limit);
      WindowNewestFirst(SortNewest(store), skip, limit);
      Ok(200, Listing(|data|, |store|, page, TotalPages(|store|, limit), data))
  }

  /** The pages of `xs` of size `limit`, in order. */
  function Pages<T>(xs: seq<T>, limit: nat): seq<seq<T>>
    requires limit > 0
    decreases |xs|
  {
    if xs == [] then [] else [xs[..Min(limit, |xs|)]] + Pages(xs[Min(limit, |xs|)..], limit)
  }

  function Flatten<T>(pages: seq<seq<T>>): seq<T>
    decreases |pages|
  {
    if pages == [] then [] else pages[0] + Flatten(pages[1..])
  }

  /** There are exactly `totalPages` pages. */
  lemma {:induction false} PageCount<T>(xs: seq<T>, limit: nat)
    requires limit > 0
    ensures |Pages(xs, limit)| == TotalPages(|xs|, limit).value
    decreases |xs|
  {
    if xs != [] {
      var k := Min(limit, |xs|);
      var rest := xs[k..];
      PageCount(rest, limit);
      assert |Pages(xs, limit)| == 1 + |Pages(rest, limit)|;
      if limit < |xs| {
        var a := |rest| + limit - 1;
        assert |xs| + limit - 1 == a + limit;
        DivShift(a, limit);
      } else {
        assert rest == [];
        DivUnique(|xs| + limit - 1, limit, 1, |xs| - 1);
      }
    }
  }

  /** Read one after the other, the pages give every document once, in
      order. */
  lemma {:induction false} PagesFlatten<T>(xs: seq<T>, limit: nat)
    requires limit > 0
    ensures Flatten(Pages(xs, limit)) == xs
    decreases |xs|
  {
    if xs != [] {
      var k := Min(limit, |xs|);
      PagesFlatten(xs[k..], limit);
      assert xs[..k] + xs[k..] == xs;
    }
  }

  /** Page `k + 1` is exactly what the listing returns for `page = k + 1`. */
  lemma PagesAreWindows<T>(xs: seq<T>, limit: nat)
    requires limit > 0
    ensures forall k :: 0 <= k < |Pages(xs, limit)| ==> Pages(xs, limit)[k] == Window(xs, k * limit, limit)
  {
    forall k | 0 <= k < |Pages(xs, limit)|
      ensures Pages(xs, limit)[k] == Window(xs, k * limit, limit)
    {
      PageAt(xs, limit, k);
    }
  }

  /** Page `k` starts `k * limit` items in. */
  lemma {:induction false} PageAt<T>(xs: seq<T>, limit: nat, k: nat)
    requires limit > 0 && k < |Pages(xs, limit)|
    ensures Pages(xs, limit)[k] == Window(xs, k * limit, limit)
    decreases k
  {
    var n := Min(limit, |xs|);
    var rest := xs[n..];
    var ps := Pages(xs, limit);
    assert ps == [xs[..n]] + Pages(rest, limit);
    if k == 0 {
      assert Window(xs, 0, limit) == xs[..n];
    } else {
      assert |Pages(rest, limit)| > 0;
      assert rest != [];
      assert limit < |xs|;
      assert ps[k] == Pages(rest, limit)[k - 1];
      PageAt(rest, limit, k - 1);
      var j := (k - 1) * limit;
      MulPred(k, limit);
      assert k * limit == limit + j;
      WindowShift(xs, limit, j);
      assert Window(xs, k * limit, limit) == Window(rest, j, limit);
    }
  }

  lemma MulNonNegative(a: nat, b: nat)
    ensures a * b >= 0
  {
  }

  lemma MulPred(k: nat, d: nat)
    requires k >= 1
    ensures k * d == d + (k - 1) * d
  {
  }

  lemma DivShift(a: nat, d: nat)
    requires d > 0
    ensures (a + d) / d == a / d + 1
  {
    var q, r := a / d, a % d;
    assert a + d == (q + 1) * d + r;
    DivUnique(a + d, d, q + 1, r);
  }

  lemma DivUnique(n: int, d: int, q: int, r: int)
    requires d > 0 && 0 <= r < d && n == q * d + r
    ensures n / d == q
  {
    var q0, r0 := n / d, n % d;
    assert n == q0 * d + r0;
    if q > q0 {
      MulAtLeast(q - q0, d);
    } else if q < q0 {
      MulAtLeast(q0 - q, d);
    }
  }

  lemma MulAtLeast(k: int, d: int)
    requires k >= 1 && d > 0
    ensures k * d >= d
  {
  }

  /** Skipping `limit + s` is skipping `limit`, then `s`. */
  lemma WindowShift<T>(xs: seq<T>, limit: nat, s: nat)
    requires 0 < limit < |xs|
    ensures Window(xs, limit + s, limit) == Window(xs[limit..], s, limit)
  {
    assert xs[limit..][Min(s, |xs| - limit)..] == xs[Min(limit + s, |xs|)..];
  }

  /** A page past the last one is empty. */
  lemma PastLastPageIsEmpty<T>(xs: seq<T>, limit: nat, p: nat)
    requires limit > 0 && p > TotalPages(|xs|, limit).value
    ensures Window(xs, (p - 1) * limit, limit) == []
  {
    var n := TotalPages(|xs|, limit).value;
    assert (p - 1) * limit >= n * limit;
  }

  /** For a positive limit, page `p` of the listing is the `p`-th page of
      the newest-first documents (empty past the last page), and the reply's
      `totalPages` counts those pages. */
  lemma ListingIsPage(store: seq<NameDoc>, limit: nat, page: nat)
    requires limit > 0 && page >= 1
    ensures var r := ListNames(store, Query(Some(limit), Some(page)), false);
      var pages := Pages(SortNewest(store), limit);
      && r.Ok?
      && r.payload.data == (if page <= |pages| then pages[page - 1] else [])
      && r.payload.totalPages == Some(|pages|)
  {
    var xs := SortNewest(store);
    var q := Query(Some(limit), Some(page));
    assert q.limit.GetOr(DefaultLimit) == limit && q.page.GetOr(DefaultPage) == page;
    MulNonNegative(page - 1, limit);
    var r := ListNames(store, q, false);
    assert r.Ok?;
    assert r.payload.data == Window(xs, (page - 1) * limit, limit);
    PageCount(xs, limit);
    if page <= |Pages(xs, limit)| {
      PageAt(xs, limit, page - 1);
    } else {
      PastLastPageIsEmpty(xs, limit, page);
    }
  }

  datatype NameDetails = NameDetails(id: DocId, fullName: string, createdAt: Time, updatedAt: Time, timestamp: Time)

  /** `Name.findById(id)`: the first document with that id. */
  function FindById(store: seq<NameDoc>, id: DocId): (r: Option<nat>)
    ensures r.Some? ==>
      && r.value < |store| && store[r.value].id == id
      && (forall j :: 0 <= j < r.value ==> store[j].id != id)
    ensures r.None? <==> forall j :: 0 <= j < |store| ==> store[j].id != id
    decreases |store|
  {
    if store == [] then None
    else if store[0].id == id then Some(0)
    else
      match FindById(store[1..], id)
      case None => None
      case Some(i) => Some(i + 1)
  }

  /** `GET /api/names/:id`. `isValid` is `mongoose.Types.ObjectId.isValid`
      and `fails` a database error. */
  function GetName(store: seq<NameDoc>, id: DocId, isValid: DocId -> bool, fails: bool): (r: Reply<NameDetails>)
    ensures !isValid(id) ==> r == Fail(400, "Invalid ID", "Please provide a valid name ID")
    ensures (isValid(id) && fails) ==> r == Fail(500, ServerError, FetchFailed)
    ensures (isValid(id) && !fails && FindById(store, id).None?) ==> r == Fail(404, "Not found", "Name not found")
    // every stored document is served when the id is valid and the database answers
    ensures r.Ok? <==> isValid(id) && !fails && FindById(store, id).Some?
    ensures r.Ok? ==>
      && r.status == 200
      && (exists i :: 0 <= i < |store| && store[i].id == id
            && r.payload == NameDetails(id, store[i].fullName, store[i].createdAt, store[i].updatedAt, store[i].createdAt))
      && var d := store[FindById(store, id).value];
         r.payload == NameDetails(d.id, d.fullName, d.createdAt, d.updatedAt, d.createdAt)
  {
    if !isValid(id) then Fail(400, "Invalid ID", "Please provide a valid name ID")
    else if fails then Fail(500, ServerError, FetchFailed)
    else
      match FindById(store, id)
      case None => Fail(404, "Not found", "Name not found")
      case Some(i) =>
        var d := store[i];
        Ok(200, NameDetails(d.id, d.fullName, d.createdAt, d.updatedAt, d.createdAt))
  }

  /** A name just saved can be fetched back by its id, unchanged. */
  lemma SavedNameCanBeFetched(store: seq<NameDoc>, fullName: Option<string>, env: SaveEnv, isValid: DocId -> bool)
    requires PostName(store, fullName, env).0.Ok?
    requires forall j :: 0 <= j < |store| ==> store[j].id != env.newId
    requires isValid(env.newId)
    ensures var after := PostName(store, fullName, env).1;
      GetName(after, env.newId, isValid, false)
        == Ok(200, NameDetails(env.newId, Trim(fullName.value), env.builtAt, env.savedAt, env.builtAt))
  {
    var after := PostName(store, fullName, env).1;
    assert after[|store|].id == env.newId;
    var i := FindById(after, env.newId).value;
    assert i == |store|;
  }

  /** The error-handling middleware: the error's own message is shown only
      when `NODE_ENV` is `development`. */
  function HandleError(nodeEnv: Option<string>, errMessage: string): (r: Reply<()>)
    ensures r.Fail? && r.status == 500 && r.error == "Something went wrong!"
    ensures nodeEnv == Some("development") ==> r.message == errMessage
    ensures nodeEnv != Some("development") ==> r.message == "Internal server error"
  {
    Fail(500, "Something went wrong!",
      if nodeEnv == Some("development") then errMessage else "Internal server error")
  }
}

=== FILE: name_schema.dfy ===
/** The Name document and its schema: `fullName` is required, trimmed and
    at most 100 characters long; `createdAt` and `updatedAt` default to the
    creation time, and every save stamps `updatedAt`. */
module NameSchema {
  import opened Values
  import opened Text

  type Time = int

  /** A document `_id`, left abstract as its hexadecimal text. */
  type DocId = string

  datatype NameDoc = NameDoc(id: DocId, fullName: string, createdAt: Time, updatedAt: Time)

  const MaxLength := 100

  /** The first validator of `fullName` that rejects a value. */
  datatype SchemaError = Required | TooLong

  /** `new Name({ fullName })` at time `now`: the `trim` setter applies and
      both dates take their default. */
  function Create(id: DocId, fullName: string, now: Time): (d: NameDoc)
    ensures Trimmed(d.fullName) && |d.fullName| <= |fullName|
    ensures d.createdAt == now && d.updatedAt == now
  {
    TrimSpec(fullName);
    NameDoc(id, Trim(fullName), now, now)
  }

  /** The schema validators on a stored (already trimmed) `fullName`.
      `required` rejects the empty string, which also covers `minlength: 1`. */
  function Validate(fullName: string): (r: Option<SchemaError>)
    ensures r.None? <==> 1 <= |fullName| <= MaxLength
    ensures r == Some(Required) <==> fullName == ""
  {
    if fullName == "" then Some(Required)
    else if |fullName| > MaxLength then Some(TooLong)
    else None
  }

  /** `doc.save()` at time `now`: validation, then the `pre('save')` hook
      stamps `updatedAt`. */
  function Save(d: NameDoc, now: Time): (r: Result)
    ensures r.Saved? <==> Validate(d.fullName).None?
    ensures r.Saved? ==> r.doc == d.(updatedAt := now)
    ensures r.Invalid? ==> r.error == Validate(d.fullName).value
  {
    match Validate(d.fullName)
    case Some(e) => Invalid(e)
    case None => Saved(d.(updatedAt := now))
  }

  datatype Result = Saved(doc: NameDoc) | Invalid(error: SchemaError)

  /** A name is accepted exactly when its trimmed form has between 1 and 100
      characters. */
  lemma AcceptedIffTrimmedLength(id: DocId, fullName: string, t0: Time, t1: Time)
    ensures Save(Create(id, fullName, t0), t1).Saved? <==> 1 <= |Trim(fullName)| <= MaxLength
  {
  }

  /** A saved name is trimmed, trimming it again changes nothing, and saving
      touches only `updatedAt`. */
  lemma SavedNameIsStable(id: DocId, fullName: string, t0: Time, t1: Time)
    requires Save(Create(id, fullName, t0), t1).Saved?
    ensures var d := Save(Create(id, fullName, t0), t1).doc;
      && Trimmed(d.fullName) && Trim(d.fullName) == d.fullName
      && d.fullName == Trim(fullName) && d.createdAt == t0 && d.updatedAt == t1
  {
    TrimIdempotent(fullName);
  }

  /** Saving again re-validates the same name and only moves `updatedAt`. */
  lemma ResaveMovesOnlyUpdatedAt(d: NameDoc, t1: Time, t2: Time)
    requires Save(d, t1).Saved?
    ensures Save(Save(d, t1).doc, t2) == Saved(d.(updatedAt := t2))
  {
  }
}

=== FILE: register_form.dfy ===
/** The registration form: its ordered field checks and what submitting it
    does with the context's `register`. */
module RegisterForm {
  import opened Values
  import opened Text
  import opened EmailPattern
  import opened AuthContext

  datatype Fields = Fields(username: string, email: string, password: string, confirmPassword: string)

  /** The form's state between renders. */
  datatype FormState = FormState(fields: Fields, message: string, isLoading: bool)

  /** The seven checks, in the order the form runs them. */
  datatype Check =
    | UsernameRequired | UsernameTooShort | EmailRequired | EmailInvalid
    | PasswordRequired | PasswordTooShort | PasswordMismatch

  const Order: seq<Check> := [
    UsernameRequired, UsernameTooShort, EmailRequired, EmailInvalid,
    PasswordRequired, PasswordTooShort, PasswordMismatch]

  /** Check `k` rejects the fields. Username and email are judged trimmed,
      the password as typed. */
  predicate Fails(f: Fields, k: Check) {
    match k
    case UsernameRequired => Trim(f.username) == ""
    case UsernameTooShort => |Trim(f.username)| < 3
    case EmailRequired => Trim(f.email) == ""
    case EmailInvalid => !IsEmail(Trim(f.email))
    case PasswordRequired => f.password == ""
    case PasswordTooShort => |f.password| < 6
    case PasswordMismatch => f.password != f.confirmPassword
  }

  function MessageOf(k: Check): string {
    match k
    case UsernameRequired => "Username is required."
    case UsernameTooShort => "Username must be at least 3 characters long."
    case EmailRequired => "Email is required."
    case EmailInvalid => "Please enter a valid email address."
    case PasswordRequired => "Password is required."
    case PasswordTooShort => "Password must be at least 6 characters long."
    case PasswordMismatch => "Passwords do not match."
  }

  /** `validateForm`: `None` for `true`, or the message it sets before
      returning `false`. */
  function ValidateForm(f: Fields): Option<string> {
    var u := Trim(f.username);
    var e := Trim(f.email);
    if u == "" then Some(MessageOf(UsernameRequired))
    else if |u| < 3 then Some(MessageOf(UsernameTooShort))
    else if e == "" then Some(MessageOf(EmailRequired))
    else if !IsEmail(e) then Some(MessageOf(EmailInvalid))
    else if f.password == "" then Some(MessageOf(PasswordRequired))
    else if |f.password| < 6 then Some(MessageOf(PasswordTooShort))
    else if f.password != f.confirmPassword then Some(MessageOf(PasswordMismatch))
    else None
  }

  /** `validateForm` accepts exactly when no check fails, and otherwise
      reports the first check, in order, that fails. */
  lemma ValidateFormFirstFailure(f: Fields)
    ensures ValidateForm(f).None? <==> forall k :: !Fails(f, k)
    ensures ValidateForm(f).Some? ==>
      exists i :: 0 <= i < |Order| && FirstFailure(f, i) && ValidateForm(f).value == MessageOf(Order[i])
  {
    var i := if Fails(f, UsernameRequired) then 0
      else if Fails(f, UsernameTooShort) then 1
      else if Fails(f, EmailRequired) then 2
      else if Fails(f, EmailInvalid) then 3
      else if Fails(f, PasswordRequired) then 4
      else if Fails(f, PasswordTooShort) then 5
      else if Fails(f, PasswordMismatch) then 6
      else 7;
    if i < 7 {
      assert FirstFailure(f, i);
    } else {
      forall k ensures !Fails(f, k) {
        match k
        case UsernameRequired =>
        case UsernameTooShort =>
        case EmailRequired =>
        case EmailInvalid =>
        case PasswordRequired =>
        case PasswordTooShort =>
        case PasswordMismatch =>
      }
    }
  }

  /** Check `Order[i]` fails and none before it does. */
  predicate FirstFailure(f: Fields, i: nat)
    requires i < |Order|
  {
    Fails(f, Order[i]) && forall j :: 0 <= j < i ==> !Fails(f, Order[j])
  }

  /** The arguments `register` is called with. */
  datatype RegisterCall = RegisterCall(username: string, email: string, password: string)

  /** `handleRegister`, given what the awaited `register` call produces.
      Returns the new state and the call made, if any. */
  function HandleRegister(s: FormState, answer: Awaited): (r: (FormState, Option<RegisterCall>))
    // an invalid form: its message is shown, nothing is sent, nothing else changes
    ensures ValidateForm(s.fields).Some? ==>
      r == (s.(message := ValidateForm(s.fields).value), None)
    // a valid form: trimmed username and email, password as typed
    ensures ValidateForm(s.fields).None? ==>
      && r.1 == Some(RegisterCall(Trim(s.fields.username), Trim(s.fields.email), s.fields.password))
      && !r.0.isLoading
    ensures (ValidateForm(s.fields).None? && answer.Resolved? && answer.outcome.Succeeded?) ==>
      r.0.message == "Registration successful!" && r.0.fields == Fields("", "", "", "")
    ensures (ValidateForm(s.fields).None? && answer.Resolved? && answer.outcome.Failed?) ==>
      r.0.message == answer.outcome.reason && r.0.fields == s.fields
    ensures (ValidateForm(s.fields).None? && answer.Rejected?) ==>
      r.0.message == "An unexpected error occurred." && r.0.fields == s.fields
  {
    match ValidateForm(s.fields)
    case Some(m) => (s.(message := m), None)
    case None =>
      var call := RegisterCall(Trim(s.fields.username), Trim(s.fields.email), s.fields.password);
      var after :=
        match answer
        case Resolved(Succeeded(_)) => s.(fields := Fields("", "", "", ""), message := "Registration successful!")
        case Resolved(Failed(reason)) => s.(message := reason)
        case Rejected => s.(message := "An unexpected error occurred.");
      (after.(isLoading := false), Some(call))
  }

  /** The password checks look at the raw password, so six spaces pass
      them. */
  lemma BlankPasswordPasses(f: Fields)
    requires !Fails(f, UsernameRequired) && !Fails(f, UsernameTooShort)
    requires !Fails(f, EmailRequired) && !Fails(f, EmailInvalid)
    ensures ValidateForm(f.(password := "      ", confirmPassword := "      ")) == None
  {
    var g := f.(password := "      ", confirmPassword := "      ");
    assert forall k :: !Fails(g, k);
  }

  /** Padding a valid username with blanks changes neither the verdict nor
      what is sent. */
  lemma UsernamePaddingIsIgnored(s: FormState, answer: Awaited, pad: string)
    requires AllSpace(pad)
    ensures var padded := s.(fields := s.fields.(username := pad + s.fields.username + pad));
      && ValidateForm(padded.fields) == ValidateForm(s.fields)
      && HandleRegister(padded, answer).1 == HandleRegister(s, answer).1
  {
    TrimAbsorbsPadding(pad, s.fields.username, pad);
  }
}

=== FILE: storage.dfy ===
/** The client's key-value storage wrapper: `localStorage` on the web, and
    on a native platform `localStorage` when the runtime provides one and
    nothing otherwise. */
module Storage {
  import opened Values

  datatype Platform =
    | Web
      /** `typeof window !== 'undefined' && window.localStorage` */
    | Native(hasLocalStorage: bool)

  /** The storage a client runs against. `faulty` stands for a
      `localStorage` whose every call throws (storage disabled, quota
      exceeded). */
  datatype Device = Device(platform: Platform, items: map<string, string>, faulty: bool)

  /** The wrapper reaches `localStorage` on this platform. */
  predicate Backed(p: Platform) {
    p.Web? || p.hasLocalStorage
  }

  /** An awaited storage call: it completes with a value or rejects. */
  datatype Attempt<+T> = Done(value: T) | Threw

  /** `storage.setItem(key, value)`. */
  function SetItem(d: Device, key: string, value: string): (r: Attempt<Device>)
    ensures r.Threw? <==> Backed(d.platform) && d.faulty
    ensures r.Done? ==> r.value.platform == d.platform && r.value.faulty == d.faulty
    ensures r.Done? && Backed(d.platform) ==> key in r.value.items && r.value.items[key] == value
    ensures r.Done? ==> forall k :: k != key ==> Lookup(r.value, k) == Lookup(d, k)
    ensures !Backed(d.platform) ==> r == Done(d)
  {
    if !Backed(d.platform) then Done(d)
    else if d.faulty then Threw
    else Done(d.(items := d.items[key := value]))
  }

  /** `storage.getItem(key)`: `None` stands for `null`. */
  function GetItem(d: Device, key: string): (r: Attempt<Option<string>>)
    ensures r.Threw? <==> Backed(d.platform) && d.faulty
    ensures r.Done? && Backed(d.platform) ==> (r.value.Some? <==> key in d.items)
    ensures r.Done? && r.value.Some? ==> key in d.items && d.items[key] == r.value.value
    ensures !Backed(d.platform) ==> r == Done(None)
  {
    if !Backed(d.platform) then Done(None)
    else if d.faulty then Threw
    else Done(Lookup(d, key))
  }

  /** `storage.removeItem(key)`. */
  function RemoveItem(d: Device, key: string): (r: Attempt<Device>)
    ensures r.Threw? <==> Backed(d.platform) && d.faulty
    ensures r.Done? ==> r.value.platform == d.platform && r.value.faulty == d.faulty
    ensures r.Done? && Backed(d.platform) ==> key !in r.value.items
    ensures !Backed(d.platform) ==> r == Done(d)
    ensures r.Done? ==> forall k :: k != key ==> Lookup(r.value, k) == Lookup(d, k)
  {
    if !Backed(d.platform) then Done(d)
    else if d.faulty then Threw
    else Done(d.(items := d.items - {key}))
  }

  /** What is stored under `key`, looked at directly. */
  function Lookup(d: Device, key: string): Option<string> {
    if key in d.items then Some(d.items[key]) else None
  }

  /** Reading a key back returns what was just written to it. */
  lemma SetThenGet(d: Device, key: string, value: string)
    requires Backed(d.platform) && !d.faulty
    ensures SetItem(d, key, value).Done?
    ensures GetItem(SetItem(d, key, value).value, key) == Done(Some(value))
  {
  }

  /** Reading a key back after removing it gives `null`. */
  lemma RemoveThenGet(d: Device, key: string)
    requires Backed(d.platform) && !d.faulty
    ensures RemoveItem(d, key).Done?
    ensures GetItem(RemoveItem(d, key).value, key) == Done(None)
  {
  }

  /** Without `localStorage` on a native platform, writes and removals do
      nothing and every read gives `null`. */
  lemma UnbackedIsInert(d: Device, key: string, value: string)
    requires d.platform == Native(false)
    ensures SetItem(d, key, value) == Done(d)
    ensures RemoveItem(d, key) == Done(d)
    ensures GetItem(d, key) == Done(None)
  {
  }

  /** A native platform that has `localStorage` behaves exactly like the web. */
  lemma NativeWithStorageIsWeb(d: Device, key: string, value: string)
    requires d.platform == Web
    ensures var n := d.(platform := Native(true));
      && GetItem(n, key) == GetItem(d, key)
      && SetItem(n, key, value) == (match SetItem(d, key, value)
                                      case Done(e) => Done(e.(platform := Native(true)))
                                      case Threw => Threw)
      && RemoveItem(n, key) == (match RemoveItem(d, key)
                                  case Done(e) => Done(e.(platform := Native(true)))
                                  case Threw => Threw)
  {
  }

  /** Writing or removing one key leaves the value read from every other
      key as it was. */
  lemma OtherKeysUntouched(d: Device, key: string, other: string, value: string)
    requires other != key
    ensures SetItem(d, key, value).Done? ==> GetItem(SetItem(d, key, value).value, other) == GetItem(d, other)
    ensures RemoveItem(d, key).Done? ==> GetItem(RemoveItem(d, key).value, other) == GetItem(d, other)
  {
  }
}

=== FILE: text.dfy ===
/** The JavaScript string operations the handlers and components rely on:
    `trim`, `toLowerCase`, `split` on one separator character, and the
    "keep non-blank lines" filter. */
module Text {

  /** The characters `String.prototype.trim` removes: the ECMAScript
      WhiteSpace code points (tab, vertical tab, form feed, space, no-break
      space, byte order mark and the other space separators of category Zs)
      and the LineTerminator code points (LF, CR, U+2028, U+2029). */
  const Whitespace: set<char> := {
    '\t', '\n', '\U{000B}', '\U{000C}', '\r', ' ', '\U{00A0}', '\U{1680}',
    '\U{2000}', '\U{2001}', '\U{2002}', '\U{2003}', '\U{2004}', '\U{2005}',
    '\U{2006}', '\U{2007}', '\U{2008}', '\U{2009}', '\U{200A}',
    '\U{2028}', '\U{2029}', '\U{202F}', '\U{205F}', '\U{3000}', '\U{FEFF}'
  }

  predicate IsSpace(c: char) {
    c in Whitespace
  }

  predicate AllSpace(s: string) {
    forall i :: 0 <= i < |s| ==> IsSpace(s[i])
  }

  /** `s` has no white space at either end. */
  predicate Trimmed(s: string) {
    s == [] || (!IsSpace(s[0]) && !IsSpace(s[|s| - 1]))
  }

  /** `s.trimStart()`. */
  function TrimStart(s: string): string
    decreases |s|
  {
    if s != [] && IsSpace(s[0]) then TrimStart(s[1..]) else s
  }

  /** `s.trimEnd()`. */
  function TrimEnd(s: string): string
    decreases |s|
  {
    if s != [] && IsSpace(s[|s| - 1]) then TrimEnd(s[..|s| - 1]) else s
  }

  /** `s.trim()`. */
  function Trim(s: string): string {
    TrimEnd(TrimStart(s))
  }

  /** `TrimStart(s)` is the suffix of `s` left once its leading white space
      is dropped. */
  lemma {:induction false} TrimStartSpec(s: string)
    ensures var r := TrimStart(s);
      && |r| <= |s| && r == s[|s| - |r|..]
      && AllSpace(s[..|s| - |r|])
      && (r == [] || !IsSpace(r[0]))
    decreases |s|
  {
    if s != [] && IsSpace(s[0]) {
      TrimStartSpec(s[1..]);
      var r := TrimStart(s[1..]);
      assert s[1..][|s| - 1 - |r|..] == s[|s| - |r|..];
      assert s[..|s| - |r|] == [s[0]] + s[1..][..|s| - 1 - |r|];
    }
  }

  /** `TrimEnd(s)` is the prefix of `s` left once its trailing white space
      is dropped. */
  lemma {:induction false} TrimEndSpec(s: string)
    ensures var r := TrimEnd(s);
      && |r| <= |s| && r == s[..|r|]
      && AllSpace(s[|r|..])
      && (r == [] || !IsSpace(r[|r| - 1]))
    decreases |s|
  {
    if s != [] && IsSpace(s[|s| - 1]) {
      TrimEndSpec(s[..|s| - 1]);
      var r := TrimEnd(s[..|s| - 1]);
      assert s[..|s| - 1][..|r|] == s[..|r|];
      assert s[|r|..] == s[..|s| - 1][|r|..] + [s[|s| - 1]];
    }
  }

  /** `Trim(s)` has no white space at either end and is empty exactly when
      `s` is all white space. */
  lemma TrimSpec(s: string)
    ensures Trimmed(Trim(s)) && |Trim(s)| <= |s|
    ensures Trim(s) == [] <==> AllSpace(s)
  {
    var t := TrimStart(s);
    var r := TrimEnd(t);
    TrimStartSpec(s);
    TrimEndSpec(t);
    if r == [] {
      assert t[|r|..] == t;
      assert t == [];
      assert s[..|s|] == s;
    } else {
      assert t[0] == r[0] && s[|s| - |t|] == t[0];
    }
  }

  /** Trim undoes any white-space padding of an already trimmed string. */
  lemma {:induction false} TrimOfPadded(a: string, m: string, b: string)
    requires AllSpace(a) && AllSpace(b) && Trimmed(m)
    ensures Trim(a + m + b) == m
  {
    if m == [] {
      assert a + m + b == a + b;
      assert AllSpace(a + b);
      TrimSpec(a + b);
    } else {
      assert a + m + b == a + (m + b);
      TrimStartPadded(a, m + b);
      TrimEndPadded(m, b);
    }
  }

  lemma {:induction false} TrimStartPadded(a: string, t: string)
    requires AllSpace(a)
    requires t == [] || !IsSpace(t[0])
    ensures TrimStart(a + t) == t
    decreases |a|
  {
    if a != [] {
      assert (a + t)[1..] == a[1..] + t;
      TrimStartPadded(a[1..], t);
    }
  }

  lemma {:induction false} TrimEndPadded(t: string, b: string)
    requires AllSpace(b)
    requires t == [] || !IsSpace(t[|t| - 1])
    ensures TrimEnd(t + b) == t
    decreases |b|
  {
    if b != [] {
      assert (t + b)[..|t + b| - 1] == t + b[..|b| - 1];
      TrimEndPadded(t, b[..|b| - 1]);
    }
  }

  /** Trimming twice is trimming once. */
  lemma TrimIdempotent(s: string)
    ensures Trim(Trim(s)) == Trim(s)
  {
    var m := Trim(s);
    TrimSpec(s);
    assert [] + m + [] == m;
    TrimOfPadded([], m, []);
  }

  /** A string with no white space at its ends is left alone. */
  lemma TrimOfTrimmed(s: string)
    requires Trimmed(s)
    ensures Trim(s) == s
  {
    assert [] + s + [] == s;
    TrimOfPadded([], s, []);
  }

  /** Extra white space around a string does not change its trim. */
  lemma TrimAbsorbsPadding(a: string, s: string, b: string)
    requires AllSpace(a) && AllSpace(b)
    ensures Trim(a + s + b) == Trim(s)
  {
    var lead, m, trail := TrimParts(s);
    assert a + s + b == (a + lead) + m + (trail + b);
    AllSpaceConcat(a, lead);
    AllSpaceConcat(trail, b);
    TrimOfPadded(a + lead, m, trail + b);
  }

  /** Every string is its trim with white space on either side. */
  lemma TrimParts(s: string) returns (lead: string, m: string, trail: string)
    ensures s == lead + m + trail && m == Trim(s)
    ensures AllSpace(lead) && AllSpace(trail) && Trimmed(m)
  {
    var t := TrimStart(s);
    m := TrimEnd(t);
    TrimStartSpec(s);
    TrimEndSpec(t);
    TrimSpec(s);
    lead, trail := s[..|s| - |t|], t[|m|..];
    Halves(t, |m|);
    Halves(s, |s| - |t|);
  }

  /** A sequence is its prefix followed by the matching suffix. */
  lemma Halves<T>(s: seq<T>, k: nat)
    requires k <= |s|
    ensures s == s[..k] + s[k..]
  {
  }

  lemma AllSpaceConcat(x: string, y: string)
    requires AllSpace(x) && AllSpace(y)
    ensures AllSpace(x + y)
  {
    var z := x + y;
    forall i | 0 <= i < |z|
      ensures IsSpace(z[i])
    {
      if i < |x| {
        assert z[i] == x[i];
      } else {
        assert z[i] == y[i - |x|];
      }
    }
  }

  predicate IsUpper(c: char) {
    'A' <= c <= 'Z'
  }

  function LowerChar(c: char): (d: char)
    ensures !IsUpper(d)
    ensures IsUpper(c) ==> d as int == c as int + 32
    ensures !IsUpper(c) ==> d == c
  {
    if IsUpper(c) then (c as int + 32) as char else c
  }

  /** `s.toLowerCase()` on the ASCII letters. */
  function ToLower(s: string): (r: string)
    ensures |r| == |s|
    ensures forall i :: 0 <= i < |s| ==> r[i] == LowerChar(s[i])
    ensures forall i :: 0 <= i < |r| ==> !IsUpper(r[i])
  {
    seq(|s|, i requires 0 <= i < |s| => LowerChar(s[i]))
  }

  /** Lower-casing twice is lower-casing once. */
  lemma ToLowerIdempotent(s: string)
    ensures ToLower(ToLower(s)) == ToLower(s)
  {
  }

  /** `s.split(sep)` for a one-character separator: always at least one
      piece, no piece contains the separator. */
  function Split(s: string, sep: char): (r: seq<string>)
    ensures |r| >= 1
    ensures forall k :: 0 <= k < |r| ==> sep !in r[k]
    decreases |s|
  {
    if s == [] then [[]]
    else
      var rest := Split(s[1..], sep);
      if s[0] == sep then [[]] + rest
      else [[s[0]] + rest[0]] + rest[1..]
  }

  /** `parts.join(sep)`. */
  function Join(parts: seq<string>, sep: char): string
    decreases |parts|
  {
    if |parts| == 0 then []
    else if |parts| == 1 then parts[0]
    else parts[0] + [sep] + Join(parts[1..], sep)
  }

  /** Splitting at a separator splits each side independently. */
  lemma {:induction false} SplitAround(a: string, sep: char, b: string)
    ensures Split(a + [sep] + b, sep) == Split(a, sep) + Split(b, sep)
    decreases |a|
  {
    var s := a + [sep] + b;
    if a == [] {
      assert s[1..] == b;
    } else {
      assert s[1..] == a[1..] + [sep] + b;
      SplitAround(a[1..], sep, b);
    }
  }

  /** A string without the separator splits into itself. */
  lemma {:induction false} SplitWithoutSeparator(s: string, sep: char)
    requires sep !in s
    ensures Split(s, sep) == [s]
    decreases |s|
  {
    if s != [] {
      assert sep !in s[1..];
      SplitWithoutSeparator(s[1..], sep);
      assert [s[0]] + s[1..] == s;
    }
  }

  /** Joining the pieces of a split gives back the string. */
  lemma {:induction false} JoinSplit(s: string, sep: char)
    ensures Join(Split(s, sep), sep) == s
    decreases |s|
  {
    if s != [] {
      var rest := Split(s[1..], sep);
      JoinSplit(s[1..], sep);
      if s[0] == sep {
        var r := [[]] + rest;
        assert r[1..] == rest;
      } else {
        var r := [[s[0]] + rest[0]] + rest[1..];
        if |rest| == 1 {
          assert Join(r, sep) == [s[0]] + rest[0];
        } else {
          assert r[1..] == rest[1..];
          assert Join(r, sep) == [s[0]] + rest[0] + [sep] + Join(rest[1..], sep);
        }
      }
    }
  }

  /** Splitting a join of separator-free pieces gives back the pieces. */
  lemma {:induction false} SplitJoin(parts: seq<string>, sep: char)
    requires |parts| >= 1
    requires forall k :: 0 <= k < |parts| ==> sep !in parts[k]
    ensures Split(Join(parts, sep), sep) == parts
    decreases |parts|
  {
    if |parts| == 1 {
      SplitWithoutSeparator(parts[0], sep);
    } else {
      SplitAround(parts[0], sep, Join(parts[1..], sep));
      SplitWithoutSeparator(parts[0], sep);
      SplitJoin(parts[1..], sep);
      assert [parts[0]] + parts[1..] == parts;
    }
  }

  /** `lines.filter(line => line.trim().length > 0)`: the lines that are
      not entirely white space, in order. */
  function NonBlank(lines: seq<string>): (r: seq<string>)
    ensures |r| <= |lines|
    ensures forall k :: 0 <= k < |r| ==> Trim(r[k]) != []
    decreases |lines|
  {
    if lines == [] then []
    else
      var rest := NonBlank(lines[1..]);
      if Trim(lines[0]) != [] then [lines[0]] + rest else rest
  }

  /** The filter keeps a list of non-blank lines whole. */
  lemma {:induction false} NonBlankKeepsAll(lines: seq<string>)
    requires forall k :: 0 <= k < |lines| ==> Trim(lines[k]) != []
    ensures NonBlank(lines) == lines
    decreases |lines|
  {
    if lines != [] {
      NonBlankKeepsAll(lines[1..]);
      assert [lines[0]] + lines[1..] == lines;
    }
  }

  /** The filter empties a list of blank lines. */
  lemma {:induction false} NonBlankDropsAll(lines: seq<string>)
    requires forall k :: 0 <= k < |lines| ==> Trim(lines[k]) == []
    ensures NonBlank(lines) == []
    decreases |lines|
  {
    if lines != [] {
      NonBlankDropsAll(lines[1..]);
    }
  }

  /** The filter only keeps lines it was given. */
  lemma {:induction false} NonBlankSublist(lines: seq<string>)
    ensures forall k :: 0 <= k < |NonBlank(lines)| ==> NonBlank(lines)[k] in lines
    decreases |lines|
  {
    if lines != [] {
      NonBlankSublist(lines[1..]);
      forall k | 0 <= k < |NonBlank(lines[1..])|
        ensures NonBlank(lines[1..])[k] in lines
      {
        var x := NonBlank(lines[1..])[k];
        var j :| 0 <= j < |lines[1..]| && lines[1..][j] == x;
        assert lines[j + 1] == x;
      }
    }
  }

  /** One step of the filter. */
  lemma NonBlankCons(lines: seq<string>)
    requires lines != []
    ensures NonBlank(lines) == (if Trim(lines[0]) != [] then [lines[0]] else []) + NonBlank(lines[1..])
  {
  }

  lemma ConcatAssoc<T>(a: seq<T>, b: seq<T>, c: seq<T>)
    ensures a + (b + c) == (a + b) + c
  {
  }

  /** The filter works line by line, so it distributes over concatenation. */
  lemma {:induction false} NonBlankConcat(a: seq<string>, b: seq<string>)
    ensures NonBlank(a + b) == NonBlank(a) + NonBlank(b)
    decreases |a|
  {
    if a != [] {
      var head := if Trim(a[0]) != [] then [a[0]] else [];
      var x := NonBlank(a[1..]);
      var y := NonBlank(b);
      assert (a + b)[1..] == a[1..] + b;
      NonBlankConcat(a[1..], b);
      NonBlankCons(a + b);
      NonBlankCons(a);
      ConcatAssoc(head, x, y);
    } else {
      assert a + b == b;
    }
  }
}

=== FILE: values.dfy ===
/** Values that may be missing, and the JavaScript truthiness tests the
    handlers and components apply to them. */
module Values {

  /** `undefined` / `null` (None) or a value (Some). */
  datatype Option<+T> = None | Some(value: T) {

    /** The value, or `default` when it is missing. */
    function GetOr(default: T): T {
      match this
      case Some(v) => v
      case None => default
    }
  }

  /** `!!s` for a string that may be missing: present and non-empty. */
  predicate Truthy(s: Option<string>) {
    s.Some? && s.value != ""
  }

  /** `s || fallback` for a string that may be missing. */
  function OrElse(s: Option<string>, fallback: string): (r: string)
    ensures Truthy(s) ==> r == s.value
    ensures !Truthy(s) ==> r == fallback
    ensures fallback != "" ==> r != ""
  {
    if Truthy(s) then s.value else fallback
  }
}
